=== FILE: README.md ===
# QR code registry — a Dafny model

The system is a small registry of QR codes. A Django back end stores rows
(number, optional name and description, the raw scanned content, creation
time). It validates create and verify requests, rejects a create whose
number is already registered, and looks a scanned text up by raw content
first and then by the longest run of digits in it. It also reports counts
per day, week and month.

The browser front end has three parts:
- a page controller (`QRManager`) that sends add, verify, list and delete
  requests and suppresses a verify of the same content twice in a row;
- a camera scanner (`QRScanner`) that forwards one decoded code per
  detection burst and then cools down;
- a service worker that keeps an offline cache.

The model has seven modules:

- `Common` (common.dfy): `Option`/`Result`, ASCII digits, the two notions
  of whitespace (Python's `str.isspace`, used by the back end's
  `str.strip()`, and JavaScript's, used by `trim()`), and `Strip`, which
  trims with either of them.
- `Models` (models.dfy): the `Record` datatype and the `Table` class. Rows
  are kept in insertion order, the latest insert first. The module also holds
  `__str__`, `extract_number_from_content` and `find_by_content`. The
  regular-expression scan is a function listing the maximal digit runs.
- `Serializers` (serializers.dfy): the REST framework `CharField`
  validation of the three serializers, the two `create` methods with their
  `raw_content` defaulting, and `validate_content`.
- `Views` (views.dfy): serializer selection, the `create` action with its
  duplicate check, `verify`, and `stats`. Dates are integer day numbers.
- `App` (app.dfy): the `QRManager` class. HTTP calls are appended to a
  `requests` log and toasts to a `toasts` log. Each call's outcome is a
  parameter, `None` when the call or its JSON decoding fails. The pure
  selections (toast icon, result card, list rendering) are functions.
- `Scanner` (scanner.dfy): the `QRScanner` class with its three fields and
  what its scanner area shows (placeholder, error box or video). The
  decoding engine is reduced to whether it exists and runs. The camera
  probe's result, the outcome of `startScanning` and the 2000 ms cooldown
  timer are explicit events, and the codes handed to the page controller go
  to a `forwarded` log.
- `ServiceWorker` (sw.dfy): the browser's cache storage as a class of named
  caches, each mapping a request URL to a response. It has the install,
  activate and fetch handlers; network answers are parameters.

## Model

| member | source | states |
|---|---|---|
| Common.Strip | qr_manager/serializers.py:45 | with `IsPythonSpace` this is Python's `str.strip()`, with `IsJsSpace` JavaScript's `trim()`; the result has no such whitespace at either end and is no longer than the input |
| Common.StripIsInfix | qr_manager/serializers.py:45 | the stripped text is a contiguous slice of the input with only whitespace on either side of it |
| Common.StripKeepsTrimmed | qr_manager/serializers.py:45 | text with no whitespace at either end is returned unchanged |
| Common.StripIdempotent | qr_manager/serializers.py:45 | stripping twice gives the same as stripping once |
| Common.StripEmptyIffBlank | qr_manager/serializers.py:43 | the stripped text is empty exactly when the input is empty or all whitespace |
| Models.Str | qr_manager/models.py:24-25 | the text is the number, " - ", then the name, or the fixed placeholder when the name is null or empty |
| Models.Table.Insert | qr_manager/models.py:16-22 | a new row with a fresh id (distinct from every stored id) and today's date is placed first; nothing else changes |
| Models.RunsFrom | qr_manager/models.py:38 | every span `re.findall(r'\d+')` reports is a maximal run of digits, and the spans come in increasing position order |
| Models.RunsFromComplete | qr_manager/models.py:38 | every maximal run of digits is among the reported spans |
| Models.FirstLongest | qr_manager/models.py:41 | `max(..., key=len)` picks a span no other span is longer than, and every span before it is strictly shorter |
| Models.ExtractNumber | qr_manager/models.py:27-43 | empty content gives nothing, all-digit content is returned unchanged, and any result is a non-empty string of digits |
| Models.FirstLongestRunUnique | qr_manager/models.py:41 | at most one run is the first longest, so the result is determined |
| Models.NoDigitNoRun | qr_manager/models.py:38-43 | when the scan finds no run, the content has no digit at all |
| Models.ExtractNumberIsFirstLongestRun | qr_manager/models.py:30-43 | the result is nothing exactly when the content has no digit; otherwise it is the longest maximal digit run, the first one on ties |
| Models.FilterFirst | qr_manager/models.py:49 | `filter(...).first()` is nothing exactly when no row matches, and otherwise the newest matching row |
| Models.FindByContent | qr_manager/models.py:45-60 | the newest row whose raw content equals the content wins; only when there is none does the newest row with the extracted number count; otherwise nothing |
| Models.FoundRowMatches | qr_manager/models.py:49-58 | a found row is stored and matches the content by raw content or by extracted number |
| Serializers.ValidatorErrors | qr_manager/serializers.py:25-27 | the field validators find nothing exactly when the trimmed value is within `max_length` and holds no NUL; they report the length error exactly when it is too long and the NUL error exactly when it holds one, and nothing else, all for that field |
| Serializers.RunCharField | qr_manager/serializers.py:25-27 | a `CharField` omits an absent optional value; it accepts the Python-stripped value exactly when it is present, non-blank or blank-allowed, within `max_length` and free of NUL; otherwise it reports errors, all for that field: exactly `Required` for a missing required value, exactly `Blank` for a value that strips to nothing when blank is not allowed, and otherwise the validators' length and NUL errors |
| Serializers.ValidateCreate | qr_manager/serializers.py:25-27 | the body is valid exactly when a number is present with 1 to 100 characters after stripping, a present name has at most 200, and no present field holds NUL; the validated number, name and description are the stripped inputs, absent ones stay absent; an invalid body reports the number's, then the name's, then the description's field errors together, led by `Required` for a missing number and by `Blank` for a blank one |
| Serializers.DefaultRawContent | qr_manager/serializers.py:16-17 | `raw_content` is filled with the number only when absent; a supplied value is kept |
| Serializers.ModelSerializerCreate | qr_manager/serializers.py:13-19 | one row is added in front, with the supplied raw content or else the number |
| Serializers.CreateSerializerCreate | qr_manager/serializers.py:29-33 | one row is added in front, with a fresh id and raw content equal to its number |
| Serializers.ValidateContent | qr_manager/serializers.py:41-45 | an empty or all-whitespace value is refused; any other value is accepted stripped, non-empty and trimmed |
| Serializers.ValidateContentIdempotent | qr_manager/serializers.py:45 | validating the validated content again gives the same result |
| Serializers.ValidateVerify | qr_manager/serializers.py:39-45 | the verify body is valid exactly when `content` is present, not blank and free of NUL after stripping; the validated content is the stripped text; a refusal reports exactly `Required` for a missing content, exactly `Blank` for an all-whitespace one, and exactly the NUL error otherwise |
| Views.GetSerializerClass | qr_manager/views.py:27-31 | the create action gets the create serializer and every other action the model serializer |
| Views.Create | qr_manager/views.py:33-55 | an invalid body or an already registered number answers 400 with the table unchanged; otherwise exactly one row is added in front with the validated number, name and description, raw content equal to its number, and the answer is 201; status 201 happens exactly in that case; unique numbers stay unique |
| Views.FreshNumberKeepsUnique | qr_manager/views.py:39-46 | adding a row whose number no row has keeps the numbers unique |
| Views.Verify | qr_manager/views.py:57-78 | a missing, blank or NUL-holding content is a validation error carrying the verify serializer's errors; otherwise the answer is found exactly when the lookup of the stripped content finds a row, the row reported is the one the lookup picks, and it matches the content; a not-found answer echoes the stripped content, and no row has it as raw content or has its extracted number |
| Views.CountCreatedOn | qr_manager/views.py:90 | the count of rows created on a day is at most the number of rows |
| Views.CountCreatedOnIsSize | qr_manager/views.py:90 | the count of rows created on a day is the number of positions whose row has that creation day |
| Views.CountCreatedSince | qr_manager/views.py:91-92 | the count of rows created since a day is at most the number of rows |
| Views.CountCreatedSinceIsSize | qr_manager/views.py:91-92 | the count of rows created since a day is the number of positions whose row was created on or after that day |
| Views.OnIsWithinSince | qr_manager/views.py:90-91 | rows created on a day are counted among rows created since any earlier or equal day |
| Views.SinceShrinks | qr_manager/views.py:91-92 | a later start day counts no more rows |
| Views.GetStats | qr_manager/views.py:80-96 | the total is the number of rows; today's count is the rows created on `today`, the week's the rows created on or after `today - 7`, the month's the rows created on or after `today - 30`; and created today <= created this week <= created this month <= total |
| Views.NewRowCountsEverywhere | qr_manager/views.py:88-93 | a row created today raises each of the four counts by one |
| App.ToastIcon | static/js/app.js:310-311 | check-circle exactly for success, exclamation-circle exactly for error, info-circle for every other type |
| App.CreateToast | static/js/app.js:104-113 | the toast is a success exactly when the request succeeded; a failed call shows the connection error; the server's message or error is shown when given, and otherwise the fixed created or create-failed text |
| App.Block | static/js/app.js:171-172 | an optional block appears exactly when the value is truthy, and then shows that value |
| App.CommaJoin | static/js/app.js:182 | an array shown in a template is its items joined by commas: empty for no items, the item itself for one, and for several the first item, a comma, then the join of the rest |
| App.CommaJoinAppend | static/js/app.js:182 | joining two non-empty lists gives the two joins separated by one comma |
| App.ScanViewOf | static/js/app.js:161-190 | the found card is shown exactly for a found reply, with the number, date, and the name and description only when truthy; a not-found reply shows its content; a 400 reply, which has no `found`, shows the not-found card with the error list as its content |
| App.ResultToast | static/js/app.js:177-186 | the toast is the found success exactly for a found reply and the not-found error for every other reply, the 400 reply included |
| App.SelectList | static/js/app.js:200 | the list is `results` of a paged body, else the body itself |
| App.RowOf | static/js/app.js:215-228 | one list item shows the row's id, number and date, and the row's own name and description, each only when truthy |
| App.RenderList | static/js/app.js:208-233 | an empty list shows the empty message; otherwise exactly one item per row, in list order |
| App.QRManager.constructor | static/js/app.js:3-15 | starts on the add tab with no last scanned code, after one list load |
| App.QRManager.ShowToast | static/js/app.js:305-328 | appends one toast and changes nothing else |
| App.QRManager.LoadQRCodes | static/js/app.js:192-206 | one list request; on success the list is replaced by the selected rows and rendered, on failure the error box is shown and the list kept |
| App.QRManager.ShowTab | static/js/app.js:55-74 | the tab changes; only the list tab issues a list request, after which the list and list box are those of the load (the old list and the error box when it fails); nothing else changes |
| App.QRManager.AddQRCode | static/js/app.js:76-117 | a blank trimmed number shows an error and changes nothing else; otherwise one create request with the trimmed fields and one toast; on success a reload sets the list and list box, on failure they are kept; the last scanned code, tab and result box are untouched |
| App.QRManager.SubmitCode | static/js/app.js:93-116 | after the guard: one create request, its toast, and a reload exactly on success; nothing else changes |
| App.QRManager.DisplayScanResult | static/js/app.js:161-190 | the result box shows the card for the reply and one found or not-found toast follows |
| App.QRManager.ProcessQRContent | static/js/app.js:132-159 | content equal to the last sent one changes nothing but keeps it last; otherwise it becomes the last sent content before exactly one verify request; the reply, whatever its status, sets the result box and its toast, and a failed call leaves the box and shows the connection error |
| App.QRManager.VerifyQRCode | static/js/app.js:119-130 | blank input shows an error and sends nothing, leaving the last scanned code and result box alone; otherwise the trimmed input is processed with the same suppression, result box and toasts as `processQRContent` |
| App.QRManager.HandleQRScanResult | static/js/app.js:342-344 | a scanned code is processed untrimmed, with the same suppression, result box and toasts as `processQRContent` |
| App.QRManager.DeleteQRCode | static/js/app.js:235-259 | nothing without confirmation; otherwise one delete request and a toast; on success a reload sets the list and list box, otherwise they are kept |
| App.RepeatIsSuppressed | static/js/app.js:132-137 | the same content twice in a row costs one request even when the first failed |
| Scanner.ProbeMessage | static/js/scanner.js:18-43 | each probe failure shows a non-empty message of its own, never the generic camera error |
| Scanner.ProbeMessagesDistinct | static/js/scanner.js:22-40 | two different probe failures never show the same message |
| Scanner.ErrorNameOf | static/js/scanner.js:207-238 | a raw error name is one of the five known names exactly when it is not classified as other, and an other name is kept as given |
| Scanner.ClassifyCameraError | static/js/scanner.js:201-242 | each of the five known error names gets its own non-generic message with suggestions; any other name gets the generic message and no suggestions |
| Scanner.KnownErrorsDistinct | static/js/scanner.js:207-242 | two different known names never share a message |
| Scanner.ShownSuggestions | static/js/scanner.js:258-276 | an empty suggestion list is replaced by the four defaults; a non-empty one is shown as given |
| Scanner.QRScanner.constructor | static/js/scanner.js:3-43 | no engine, not scanning, no result being handled; a failing camera probe at load shows its error box |
| Scanner.QRScanner.ShowCameraError | static/js/scanner.js:258-296 | the scanner area becomes the error box with the message and the suggestions, or the defaults when none are given |
| Scanner.QRScanner.StopScanning | static/js/scanner.js:152-168 | the engine is gone, both flags are false, and the area shows the placeholder |
| Scanner.QRScanner.HandleScannerErrorAsWritten | static/js/scanner.js:201-246 | as written the scanner ends stopped with the placeholder in the area: the error box just shown is replaced |
| Scanner.QRScanner.HandleScannerError | static/js/scanner.js:201-246 | corrected: the scanner ends stopped and the classified error box stays in the area |
| Scanner.QRScanner.StartScanning | static/js/scanner.js:55-135 | corrected (errors through the corrected `HandleScannerError`): a failed camera probe only shows its error box; a permission or engine failure ends stopped with the classified error box; a successful start leaves a running engine in the video area, scanning on and no result being handled |
| Scanner.QRScanner.HandleScanResult | static/js/scanner.js:170-199 | corrected (the code is forwarded unconditionally): while a result is being handled nothing changes; otherwise the flag is set, the engine paused, the code forwarded exactly once and one cooldown scheduled |
| Scanner.QRScanner.HandleScanResultAsWritten | static/js/scanner.js:170-199 | as written: the same guard, engine pause and scheduled cooldown, but the code is forwarded only when `window.qrManager` is defined |
| Scanner.QRScanner.CooldownElapsed | static/js/scanner.js:191-198 | the flag is cleared, and the engine restarts only when scanning is on and the engine exists |
| Scanner.BurstForwardsOnce | static/js/scanner.js:174-188 | corrected: several detections in one burst forward only the first code |
| Scanner.AsWrittenNeverForwards | static/js/scanner.js:186-188 | with the controller bound by `let`, no detected code is forwarded |
| Scanner.ScanCycleAsWritten | static/js/scanner.js:119-198 | as written: start, one detection and the cooldown leave the scanner running and ready, but forward no code |
| Scanner.ScanCycle | static/js/scanner.js:119-198 | corrected: start, one detection and the cooldown forward exactly one code and leave the scanner running and ready |
| ServiceWorker.FirstHitIsFirst | static/sw.js:46 | `caches.match` finds nothing exactly when no cache holds the URL, and otherwise answers from the first cache, in creation order, that does |
| ServiceWorker.CacheStorage.Match | static/sw.js:46 | the lookup of the fetch handler (and of "/" at line 74) answers nothing exactly when no cache holds the URL, and otherwise the response of the first cache, in creation order, that holds it |
| ServiceWorker.AddAllEntries | static/sw.js:3-22 | what install stores is every URL of the fixed list with its network response, and nothing else |
| ServiceWorker.PlanFetch | static/sw.js:46-76 | a cache hit is answered without the network and without a write; on a miss the network answer is returned and stored exactly when it is a 200 of type basic; a failed network gives the cached "/" to document requests and nothing to others |
| ServiceWorker.CacheStorage.Open | static/sw.js:19 | an existing cache is kept; a missing one is created empty after the others |
| ServiceWorker.CacheStorage.Put | static/sw.js:65 | the URL's entry in the named cache is replaced; nothing else changes |
| ServiceWorker.CacheStorage.Delete | static/sw.js:35 | the named cache and its name are removed, and the answer says whether it existed |
| ServiceWorker.CacheStorage.AddAll | static/sw.js:22 | all of the list is stored when every URL answers acceptably, otherwise nothing is stored |
| ServiceWorker.CacheStorage.Install | static/sw.js:17-25 | the versioned cache exists afterwards, and holds every listed URL exactly when install succeeds |
| ServiceWorker.CacheStorage.DropIfStale | static/sw.js:32-37 | a cache other than the current version is deleted; the current one is left alone |
| ServiceWorker.CacheStorage.Activate | static/sw.js:28-41 | afterwards only the current version's cache remains, unchanged if it existed, and every other cache is gone |
| ServiceWorker.CacheStorage.Fetch | static/sw.js:44-78 | the answer and the network use are those of the fetch decision; the store changes only by the one put of a cacheable response into the versioned cache |
| ServiceWorker.CacheStorage.FetchMiss | static/sw.js:54-76 | after a miss: the network answer, stored in the versioned cache exactly when cacheable, or on a network failure the cached "/" for a document request and nothing otherwise |
| ServiceWorker.StoredIsMatched | static/sw.js:61-66 | after a miss, the response just stored is what the next match for that URL returns |
| ServiceWorker.FetchTwice | static/sw.js:46-66 | a second fetch of a URL whose first fetch stored a response is served from the cache without the network |
| ServiceWorker.InstallThenActivate | static/sw.js:17-41 | a fresh worker that installs with every URL reachable and then activates holds only the versioned cache, and every listed URL is matched from it |

## Left out

- HTTP, JSON decoding, the DOM, CSS and markup: requests are entries in a
  log, and their outcomes are parameters. The verify reply has the three
  shapes the server sends (found, not found, and the 400 error body);
  bodies the server never sends are not modelled. The initial markup of the
  scanner area is the opaque value `Initial`.
- Timers: the toast timers and the 2000 ms scanner cooldown are not
  modelled as elapsed time; the cooldown is the explicit event
  `CooldownElapsed`.
- Concurrency: overlapping async requests, and the parallel `Promise.all`
  of the activate handler, which the model runs one name at a time. Two
  creates of the same number racing past the duplicate check are not
  modelled either.
- The decoding library, `navigator.mediaDevices`, and the camera probe
  itself. The probe's three outcomes are inputs, to the constructor and
  within `StartOutcome`, as are the permission and start failures. The
  scanning indicator appended after a start is part of the `Video` area.
- `calculateScanRegion` (floating point), `formatDate` (locale formatting),
  `showStats` rendering, `showLoading`, `closeModal`, form resets.
- static/js/pwa.js and qr_manager/urls.py are not part of this model. The
  database, the ORM and `updated_at` are not modelled; `timezone.now()` is
  the `today` parameter.
- Digits are ASCII only: Python's regex `\d` also accepts other Unicode
  decimal digits.
- Common.Strip: `IsPythonSpace` and `IsJsSpace` list the whitespace of
  Python's `str.isspace` and of JavaScript's WhiteSpace and LineTerminator
  as of current Unicode; a different Unicode version could add to them.
- Serializers.RunCharField: request bodies are modelled with string values
  or absent keys. A JSON number, which the field would turn into a string,
  and a boolean, list or object, which it would refuse as invalid, are not
  modelled. Strings are sequences of Unicode scalar values, so the field's
  surrogate check can never fail and is left out.
- `extract_number_from_content` is only ever called with a string, so its
  `None` input is not modelled. JSON `null` values in request bodies are
  not modelled either.
- Serializers.ModelSerializerCreate: `validated_data` is updated in place in
  the source; the model passes it as a value.
- ServiceWorker: caches are keyed by request URL, the way the Cache API
  matches GET requests; other methods, `Vary` and query options are not
  modelled. A network answer is a `Response` or a rejection (`None`);
  `fetch` never resolves to null, so that branch of the check is not
  modelled. The asynchronous `cache.put` is applied before the answer is
  returned. A rejection of `caches.match` itself is not modelled.
- Some behaviour of the code that is easy to miss and that the model
  keeps:
  - Number uniqueness is only checked by the create view; the column
    itself is not unique.
  - The scanner's cooldown suppresses every code, not only repeats of the
    same one.
  - Scanning resumes only when the cooldown ends.
  - A not-found verify answer also carries the content.
  - The pre-cache list has three external URLs.
- Models.Table.Insert: rows are kept in insertion order, which is the
  `-created_at` order only while each insert's `today` is no earlier than
  the one before; the clock is a parameter and its monotonicity is not
  modelled.

## Findings

| source | as written | input that shows it | evidently intended | confidence | as-written member | corrected member |
|---|---|---|---|---|---|---|
| static/js/scanner.js:186 | a detected code is handed on only if `window.qrManager` is defined, but static/js/app.js:348 binds the controller with a top-level `let`, which creates no property of `window` (scanner.js:303 does assign `window.qrScanner` explicitly) | any code the camera decodes | the decoded code reaches `handleQRScanResult` once per burst | medium (the page markup is not part of this model); not executed | Scanner.QRScanner.HandleScanResultAsWritten, Scanner.AsWrittenNeverForwards, Scanner.ScanCycleAsWritten | Scanner.QRScanner.HandleScanResult, Scanner.BurstForwardsOnce, Scanner.ScanCycle |
| static/js/scanner.js:244-245 | `handleScannerError` shows the error box (`showCameraError`, scanner.js:278) and then calls `stopScanning`, whose `showScannerPlaceholder` (scanner.js:162, 248-255) overwrites the same `innerHTML` at once | a camera permission refusal (`NotAllowedError`) during `startScanning` | the classified message and its suggestions stay visible in the scanner area | high; not executed | Scanner.QRScanner.HandleScannerErrorAsWritten | Scanner.QRScanner.HandleScannerError, Scanner.QRScanner.StartScanning |

=== FILE: app.dfy ===
/** `QRManager`, the page controller: the add form guard, manual and scanned
    verification with repeat suppression, the list load and render, and the
    choice of toast icon. HTTP calls are recorded in `requests` and their
    outcomes are parameters (`None` when the call or its JSON decoding
    failed); toasts are recorded in `toasts`. */
module App {
  import opened Common

  // ---------------------------------------------------------------------
  // What the page sends and receives
  // ---------------------------------------------------------------------

  datatype ApiCall =
    | ListCodes
    | CreateCode(number: string, name: string, description: string)
    | VerifyContent(content: string)
    | DeleteCode(id: nat)

  /** A row as the API returns it in JSON; `name` and `description` may be null. */
  datatype QRJson = QRJson(id: nat, number: string, name: Option<string>, description: Option<string>, createdAt: string)

  /** JavaScript truthiness of a nullable string. */
  predicate Truthy(v: Option<string>) {
    v.Some? && v.value != []
  }

  /** The JSON body of the create answer with `response.ok`. */
  datatype CreateReply = CreateReply(ok: bool, message: Option<string>, error: Option<string>)

  /** The JSON body of the verify answer, whatever its status (the page does
      not look at `response.ok`): a found row, a not-found echo of the
      content, or the 400 body `{"content": [...]}` of a refused content,
      which has no `found` key. */
  datatype VerifyReply =
    | FoundBody(qrCode: QRJson)
    | NotFoundBody(content: string)
    | InvalidBody(contentErrors: seq<string>)

  /** The JSON body of the list answer: a bare array, or a page with `results`. */
  datatype ListBody = Bare(items: seq<QRJson>) | Paged(results: seq<QRJson>)

  datatype Toast = Toast(message: string, kind: string)

  predicate Succeeded(reply: Option<CreateReply>) {
    reply.Some? && reply.value.ok
  }

  const EnterNumberMessage: string := "يرجى إدخال الرقم"
  const EnterContentMessage: string := "يرجى إدخال محتوى رمز QR"
  const ConnectionErrorMessage: string := "حدث خطأ في الاتصال"
  const CreatedMessage: string := "تم إنشاء رمز QR بنجاح"
  const CreateFailedMessage: string := "حدث خطأ أثناء إنشاء رمز QR"
  const FoundMessage: string := "تم العثور على رمز QR"
  const NotFoundMessage: string := "لم يتم العثور على رمز QR"
  const DeletedMessage: string := "تم حذف رمز QR بنجاح"
  const DeleteFailedMessage: string := "حدث خطأ أثناء الحذف"

  // ---------------------------------------------------------------------
  // Pure selections inside the rendering methods
  // ---------------------------------------------------------------------

  /** `showToast`: the icon for a toast type. */
  function ToastIcon(kind: string): (icon: string)
    ensures icon == "check-circle" <==> kind == "success"
    ensures icon == "exclamation-circle" <==> kind == "error"
    ensures icon == "info-circle" <==> kind != "success" && kind != "error"
  {
    if kind == "success" then "check-circle"
    else if kind == "error" then "exclamation-circle"
    else "info-circle"
  }

  /** The toast `addQRCode` shows once the create request has settled: the
      server's message on success, its error otherwise, with fixed fallbacks,
      and the connection error when the request failed. */
  function CreateToast(reply: Option<CreateReply>): (t: Toast)
    ensures t.kind == "success" <==> Succeeded(reply)
    ensures t.kind == "error" <==> !Succeeded(reply)
    ensures reply.None? ==> t.message == ConnectionErrorMessage
    ensures Succeeded(reply) && Truthy(reply.value.message) ==> t.message == reply.value.message.value
    ensures reply.Some? && !reply.value.ok && Truthy(reply.value.error) ==> t.message == reply.value.error.value
    ensures Succeeded(reply) && !Truthy(reply.value.message) ==> t.message == CreatedMessage
    ensures reply.Some? && !reply.value.ok && !Truthy(reply.value.error) ==> t.message == CreateFailedMessage
    ensures t.message != []
  {
    match reply
    case None => Toast(ConnectionErrorMessage, "error")
    case Some(r) =>
      if r.ok then Toast(if Truthy(r.message) then r.message.value else CreatedMessage, "success")
      else Toast(if Truthy(r.error) then r.error.value else CreateFailedMessage, "error")
  }

  /** What `displayScanResult` puts in the result box. A `FoundCard` shows the
      number, the name and description blocks only when present, and the date. */
  datatype ScanView =
    | FoundCard(number: string, name: Option<string>, description: Option<string>, createdAt: string)
    | NotFoundCard(content: string)

  /** Show a block only for a truthy value. */
  function Block(v: Option<string>): (b: Option<string>)
    ensures b.Some? <==> Truthy(v)
    ensures b.Some? ==> b == v
  {
    if Truthy(v) then v else None
  }

  /** JavaScript's string form of an array of strings: the items joined by
      commas. */
  function CommaJoin(items: seq<string>): (r: string)
    ensures items == [] ==> r == []
    ensures |items| == 1 ==> r == items[0]
    ensures items != [] ==> items[0] <= r
    ensures |items| > 1 ==> r == items[0] + "," + CommaJoin(items[1..])
  {
    if items == [] then []
    else if |items| == 1 then items[0]
    else items[0] + "," + CommaJoin(items[1..])
  }

  /** Joining two non-empty lists is joining their joins with one comma. */
  lemma {:induction false} CommaJoinAppend(a: seq<string>, b: seq<string>)
    requires a != [] && b != []
    ensures CommaJoin(a + b) == CommaJoin(a) + "," + CommaJoin(b)
  {
    if |a| > 1 {
      assert (a + b)[1..] == a[1..] + b;
      CommaJoinAppend(a[1..], b);
    } else {
      assert (a + b)[1..] == b;
    }
  }

  /** The result box: the found card for a found row; otherwise the
      not-found card showing `result.content`, which for a refused content
      is the server's error list in string form. */
  function ScanViewOf(result: VerifyReply): (v: ScanView)
    ensures v.FoundCard? <==> result.FoundBody?
    ensures v.FoundCard? ==> v.number == result.qrCode.number && v.createdAt == result.qrCode.createdAt
    ensures v.FoundCard? ==> (v.name.Some? <==> Truthy(result.qrCode.name))
    ensures v.FoundCard? ==> (v.description.Some? <==> Truthy(result.qrCode.description))
    ensures v.FoundCard? && v.name.Some? ==> v.name == result.qrCode.name
    ensures v.FoundCard? && v.description.Some? ==> v.description == result.qrCode.description
    ensures result.NotFoundBody? ==> v == NotFoundCard(result.content)
    ensures result.InvalidBody? ==> v == NotFoundCard(CommaJoin(result.contentErrors))
  {
    match result
    case FoundBody(qr) => FoundCard(qr.number, Block(qr.name), Block(qr.description), qr.createdAt)
    case NotFoundBody(content) => NotFoundCard(content)
    case InvalidBody(errors) => NotFoundCard(CommaJoin(errors))
  }

  /** The toast after a verify answer: success only for a found row. */
  function ResultToast(result: VerifyReply): (t: Toast)
    ensures t.kind == "success" <==> result.FoundBody?
    ensures t.message == (if result.FoundBody? then FoundMessage else NotFoundMessage)
  {
    if result.FoundBody? then Toast(FoundMessage, "success") else Toast(NotFoundMessage, "error")
  }

  /** `data.results || data` (an array is truthy even when empty). */
  function SelectList(data: ListBody): (list: seq<QRJson>)
    ensures data.Paged? ==> list == data.results
    ensures data.Bare? ==> list == data.items
  {
    match data
    case Paged(results) => results
    case Bare(items) => items
  }

  /** One rendered `qr-item`. */
  datatype RowView = RowView(id: nat, number: string, name: Option<string>, description: Option<string>, createdAt: string)

  /** The state of the list box. */
  datatype ListView = Loading | LoadFailed | EmptyList | Items(rows: seq<RowView>)

  function RowOf(qr: QRJson): (row: RowView)
    ensures row.id == qr.id && row.number == qr.number && row.createdAt == qr.createdAt
    ensures row.name.Some? <==> Truthy(qr.name)
    ensures row.description.Some? <==> Truthy(qr.description)
    ensures row.name.Some? ==> row.name == qr.name
    ensures row.description.Some? ==> row.description == qr.description
  {
    RowView(qr.id, qr.number, Block(qr.name), Block(qr.description), qr.createdAt)
  }

  /** `displayQRCodes`: the empty message for no rows, otherwise one item per
      row in list order. */
  function RenderList(codes: seq<QRJson>): (v: ListView)
    ensures v == EmptyList <==> codes == []
    ensures v.Items? <==> codes != []
    ensures v.Items? ==> |v.rows| == |codes| && forall i :: 0 <= i < |codes| ==> v.rows[i] == RowOf(codes[i])
  {
    if codes == [] then EmptyList else Items(seq(|codes|, i requires 0 <= i < |codes| => RowOf(codes[i])))
  }

  /** The list after a load: the answer's list, or the old one when the load
      failed. */
  function LoadedList(codes: seq<QRJson>, reply: Option<ListBody>): (list: seq<QRJson>)
    ensures reply.None? ==> list == codes
    ensures reply.Some? ==> list == SelectList(reply.value)
  {
    if reply.Some? then SelectList(reply.value) else codes
  }

  /** The list box after a load: the rendered list, or the error message. */
  function LoadedView(reply: Option<ListBody>): (v: ListView)
    ensures v == LoadFailed <==> reply.None?
    ensures reply.Some? ==> v == RenderList(SelectList(reply.value))
  {
    if reply.Some? then RenderList(SelectList(reply.value)) else LoadFailed
  }

  // ---------------------------------------------------------------------
  // The controller
  // ---------------------------------------------------------------------

  class QRManager {
    var currentTab: string
    var qrCodes: seq<QRJson>
    var lastScannedCode: Option<string>
    var requests: seq<ApiCall>
    var toasts: seq<Toast>
    var scanResult: Option<ScanView>
    var listView: ListView

    /** The constructor and `init`: the initial fields, one list load, and the
        add tab. */
    constructor (listReply: Option<ListBody>)
      ensures currentTab == "add" && lastScannedCode == None
      ensures requests == [ListCodes] && toasts == [] && scanResult == None
      ensures listReply.None? ==> qrCodes == [] && listView == LoadFailed
      ensures listReply.Some? ==> qrCodes == SelectList(listReply.value) && listView == RenderList(qrCodes)
    {
      currentTab := "add";
      qrCodes := [];
      lastScannedCode := None;
      requests := [];
      toasts := [];
      scanResult := None;
      listView := Loading;
      new;
      LoadQRCodes(listReply);
      ShowTab("add", None);
    }

    method ShowToast(message: string, kind: string)
      modifies this
      ensures toasts == old(toasts) + [Toast(message, kind)]
      ensures currentTab == old(currentTab) && qrCodes == old(qrCodes) && lastScannedCode == old(lastScannedCode)
      ensures requests == old(requests) && scanResult == old(scanResult) && listView == old(listView)
    {
      toasts := toasts + [Toast(message, kind)];
    }

    /** `loadQRCodes`: one GET; on success the list is replaced and rendered,
        on failure the error message is shown and the list is kept. */
    method LoadQRCodes(reply: Option<ListBody>)
      modifies this
      ensures requests == old(requests) + [ListCodes]
      ensures reply.None? ==> qrCodes == old(qrCodes) && listView == LoadFailed
      ensures reply.Some? ==> qrCodes == SelectList(reply.value) && listView == RenderList(qrCodes)
      ensures currentTab == old(currentTab) && lastScannedCode == old(lastScannedCode)
      ensures toasts == old(toasts) && scanResult == old(scanResult)
    {
      listView := Loading;
      requests := requests + [ListCodes];
      match reply
      case None =>
        listView := LoadFailed;
      case Some(data) =>
        qrCodes := SelectList(data);
        listView := RenderList(qrCodes);
    }

    /** `showTab`: switch tabs; the list tab reloads the list. */
    method ShowTab(tab: string, listReply: Option<ListBody>)
      modifies this
      ensures currentTab == tab
      ensures tab != "list" ==> requests == old(requests) && qrCodes == old(qrCodes) && listView == old(listView)
      ensures tab == "list" ==>
                && requests == old(requests) + [ListCodes]
                && qrCodes == LoadedList(old(qrCodes), listReply) && listView == LoadedView(listReply)
      ensures lastScannedCode == old(lastScannedCode) && toasts == old(toasts) && scanResult == old(scanResult)
    {
      currentTab := tab;
      if tab == "list" {
        LoadQRCodes(listReply);
      }
    }

    /** `addQRCode`: the trimmed number must be non-empty or nothing is sent;
        otherwise one POST, then a toast, and on success a list reload. */
    method AddQRCode(number: string, name: string, description: string,
                     reply: Option<CreateReply>, listReply: Option<ListBody>)
      modifies this
      ensures Strip(IsJsSpace, number) == [] ==>
                && requests == old(requests) && toasts == old(toasts) + [Toast(EnterNumberMessage, "error")]
                && qrCodes == old(qrCodes) && listView == old(listView)
      ensures Strip(IsJsSpace, number) != [] ==>
                && requests == old(requests)
                               + [CreateCode(Strip(IsJsSpace, number), Strip(IsJsSpace, name), Strip(IsJsSpace, description))]
                               + (if Succeeded(reply) then [ListCodes] else [])
                && toasts == old(toasts) + [CreateToast(reply)]
      ensures Strip(IsJsSpace, number) != [] && Succeeded(reply) ==>
                qrCodes == LoadedList(old(qrCodes), listReply) && listView == LoadedView(listReply)
      ensures Strip(IsJsSpace, number) != [] && !Succeeded(reply) ==>
                qrCodes == old(qrCodes) && listView == old(listView)
      ensures lastScannedCode == old(lastScannedCode) && currentTab == old(currentTab) && scanResult == old(scanResult)
    {
      var n := Strip(IsJsSpace, number);
      if n == [] {
        ShowToast(EnterNumberMessage, "error");
        return;
      }
      SubmitCode(CreateCode(n, Strip(IsJsSpace, name), Strip(IsJsSpace, description)), reply, listReply);
    }

    /** The part of `addQRCode` after the guard: the POST, its toast, and the
        reload after a success. */
    method SubmitCode(call: ApiCall, reply: Option<CreateReply>, listReply: Option<ListBody>)
      modifies this
      ensures requests == old(requests) + [call] + (if Succeeded(reply) then [ListCodes] else [])
      ensures toasts == old(toasts) + [CreateToast(reply)]
      ensures Succeeded(reply) ==> qrCodes == LoadedList(old(qrCodes), listReply) && listView == LoadedView(listReply)
      ensures !Succeeded(reply) ==> qrCodes == old(qrCodes) && listView == old(listView)
      ensures lastScannedCode == old(lastScannedCode) && currentTab == old(currentTab) && scanResult == old(scanResult)
    {
      requests := requests + [call];
      var t := CreateToast(reply);
      ShowToast(t.message, t.kind);
      if Succeeded(reply) {
        LoadQRCodes(listReply);
      }
    }

    /** `displayScanResult`: fill the result box and toast found / not found. */
    method DisplayScanResult(result: VerifyReply)
      modifies this
      ensures scanResult == Some(ScanViewOf(result))
      ensures toasts == old(toasts) + [ResultToast(result)]
      ensures requests == old(requests) && lastScannedCode == old(lastScannedCode)
      ensures currentTab == old(currentTab) && qrCodes == old(qrCodes) && listView == old(listView)
    {
      scanResult := Some(ScanViewOf(result));
      var t := ResultToast(result);
      ShowToast(t.message, t.kind);
    }

    /** `processQRContent`: content equal to the last one sent is ignored;
        otherwise it becomes the last one before the request, whatever the
        request's outcome, and the answer is displayed whatever its status. */
    method ProcessQRContent(content: string, reply: Option<VerifyReply>)
      modifies this
      ensures lastScannedCode == Some(content)
      ensures old(lastScannedCode) == Some(content) ==>
                requests == old(requests) && toasts == old(toasts) && scanResult == old(scanResult)
      ensures old(lastScannedCode) != Some(content) ==> requests == old(requests) + [VerifyContent(content)]
      ensures old(lastScannedCode) != Some(content) && reply.Some? ==>
                scanResult == Some(ScanViewOf(reply.value)) && toasts == old(toasts) + [ResultToast(reply.value)]
      ensures old(lastScannedCode) != Some(content) && reply.None? ==>
                scanResult == old(scanResult) && toasts == old(toasts) + [Toast(ConnectionErrorMessage, "error")]
      ensures currentTab == old(currentTab) && qrCodes == old(qrCodes) && listView == old(listView)
    {
      if lastScannedCode == Some(content) {
        return;
      }
      lastScannedCode := Some(content);
      requests := requests + [VerifyContent(content)];
      match reply
      case None =>
        ShowToast(ConnectionErrorMessage, "error");
      case Some(result) =>
        DisplayScanResult(result);
    }

    /** `verifyQRCode`: the manual form; blank input sends nothing and leaves
        the last scanned code alone, anything else goes to `processQRContent`
        trimmed. */
    method VerifyQRCode(input: string, reply: Option<VerifyReply>)
      modifies this
      ensures Strip(IsJsSpace, input) == [] ==>
                && requests == old(requests) && lastScannedCode == old(lastScannedCode)
                && toasts == old(toasts) + [Toast(EnterContentMessage, "error")] && scanResult == old(scanResult)
      ensures Strip(IsJsSpace, input) != [] ==> lastScannedCode == Some(Strip(IsJsSpace, input))
      ensures var c := Strip(IsJsSpace, input);
              c != [] && old(lastScannedCode) == Some(c) ==>
                requests == old(requests) && toasts == old(toasts) && scanResult == old(scanResult)
      ensures var c := Strip(IsJsSpace, input);
              c != [] && old(lastScannedCode) != Some(c) ==> requests == old(requests) + [VerifyContent(c)]
      ensures var c := Strip(IsJsSpace, input);
              c != [] && old(lastScannedCode) != Some(c) && reply.Some? ==>
                scanResult == Some(ScanViewOf(reply.value)) && toasts == old(toasts) + [ResultToast(reply.value)]
      ensures var c := Strip(IsJsSpace, input);
              c != [] && old(lastScannedCode) != Some(c) && reply.None? ==>
                scanResult == old(scanResult) && toasts == old(toasts) + [Toast(ConnectionErrorMessage, "error")]
      ensures currentTab == old(currentTab) && qrCodes == old(qrCodes) && listView == old(listView)
    {
      var content := Strip(IsJsSpace, input);
      if content == [] {
        ShowToast(EnterContentMessage, "error");
        return;
      }
      ProcessQRContent(content, reply);
    }

    /** `handleQRScanResult`: scanned text goes to `processQRContent` as is,
        untrimmed. */
    method HandleQRScanResult(content: string, reply: Option<VerifyReply>)
      modifies this
      ensures lastScannedCode == Some(content)
      ensures old(lastScannedCode) == Some(content) ==>
                requests == old(requests) && toasts == old(toasts) && scanResult == old(scanResult)
      ensures old(lastScannedCode) != Some(content) ==> requests == old(requests) + [VerifyContent(content)]
      ensures old(lastScannedCode) != Some(content) && reply.Some? ==>
                scanResult == Some(ScanViewOf(reply.value)) && toasts == old(toasts) + [ResultToast(reply.value)]
      ensures old(lastScannedCode) != Some(content) && reply.None? ==>
                scanResult == old(scanResult) && toasts == old(toasts) + [Toast(ConnectionErrorMessage, "error")]
      ensures currentTab == old(currentTab) && qrCodes == old(qrCodes) && listView == old(listView)
    {
      ProcessQRContent(content, reply);
    }

    /** `deleteQRCode`: nothing without confirmation; otherwise one DELETE,
        a toast, and on success a list reload. `reply` is `response.ok`. */
    method DeleteQRCode(id: nat, confirmed: bool, reply: Option<bool>, listReply: Option<ListBody>)
      modifies this
      ensures !confirmed ==>
                requests == old(requests) && toasts == old(toasts) && qrCodes == old(qrCodes) && listView == old(listView)
      ensures confirmed && reply == Some(true) ==>
                && requests == old(requests) + [DeleteCode(id), ListCodes]
                && toasts == old(toasts) + [Toast(DeletedMessage, "success")]
                && qrCodes == LoadedList(old(qrCodes), listReply) && listView == LoadedView(listReply)
      ensures confirmed && reply != Some(true) ==>
                && requests == old(requests) + [DeleteCode(id)]
                && toasts == old(toasts) + [Toast(if reply.None? then ConnectionErrorMessage else DeleteFailedMessage, "error")]
                && qrCodes == old(qrCodes) && listView == old(listView)
      ensures lastScannedCode == old(lastScannedCode) && currentTab == old(currentTab) && scanResult == old(scanResult)
    {
      if !confirmed {
        return;
      }
      requests := requests + [DeleteCode(id)];
      match reply
      case None =>
        ShowToast(ConnectionErrorMessage, "error");
      case Some(ok) =>
        if ok {
          ShowToast(DeletedMessage, "success");
          LoadQRCodes(listReply);
        } else {
          ShowToast(DeleteFailedMessage, "error");
        }
    }
  }

  /** The same content twice in a row costs one request, even when the
      first request failed: `lastScannedCode` is never reset. */
  method RepeatIsSuppressed(m: QRManager, content: string, first: Option<VerifyReply>, second: Option<VerifyReply>)
    requires m.lastScannedCode != Some(content)
    modifies m
    ensures m.requests == old(m.requests) + [VerifyContent(content)]
  {
    m.ProcessQRContent(content, first);
    m.ProcessQRContent(content, second);
  }
}

=== FILE: common.dfy ===
/** Value types and text helpers shared by the back end and the browser code. */
module Common {

  datatype Option<+T> = None | Some(value: T)

  datatype Result<+T, +E> = Ok(value: T) | Err(error: E)

  /** A decimal digit. Python's `str.isdigit` and the regular expression `\d`
      are both read as the ASCII digits. */
  predicate IsDigit(c: char) {
    '0' <= c <= '9'
  }

  predicate AllDigits(s: string) {
    forall k :: 0 <= k < |s| ==> IsDigit(s[k])
  }

  /** The characters both languages treat as whitespace: the ASCII controls
      TAB, LF, VT, FF and CR, the space, NO-BREAK SPACE, the other Unicode
      space separators, and the line and paragraph separators. */
  predicate IsCommonSpace(c: char) {
    ('\t' <= c <= '\r') || c == ' ' || c == '\U{00A0}' || c == '\U{1680}'
    || ('\U{2000}' <= c <= '\U{200A}') || c == '\U{2028}' || c == '\U{2029}'
    || c == '\U{202F}' || c == '\U{205F}' || c == '\U{3000}'
  }

  /** What Python's `str.strip()` removes (`str.isspace`): the common set,
      the information separators U+001C..U+001F and NEXT LINE (U+0085). */
  predicate IsPythonSpace(c: char) {
    IsCommonSpace(c) || ('\U{001C}' <= c <= '\U{001F}') || c == '\U{0085}'
  }

  /** What JavaScript's `String.prototype.trim()` removes (WhiteSpace and
      LineTerminator): the common set and ZERO WIDTH NO-BREAK SPACE (U+FEFF). */
  predicate IsJsSpace(c: char) {
    IsCommonSpace(c) || c == '\U{FEFF}'
  }

  /** The stripping functions below work for either notion of whitespace. */
  predicate AllSpace(isSpace: char -> bool, s: string) {
    forall k :: 0 <= k < |s| ==> isSpace(s[k])
  }

  /** `s` with its leading whitespace removed. */
  function StripStart(isSpace: char -> bool, s: string): (r: string)
    ensures |r| <= |s| && r == s[|s| - |r|..]
    ensures AllSpace(isSpace, s[..|s| - |r|])
    ensures r == [] || !isSpace(r[0])
  {
    if s != [] && isSpace(s[0]) then StripStart(isSpace, s[1..]) else s
  }

  /** `s` with its trailing whitespace removed. */
  function StripEnd(isSpace: char -> bool, s: string): (r: string)
    ensures |r| <= |s| && r == s[..|r|]
    ensures AllSpace(isSpace, s[|r|..])
    ensures r == [] || !isSpace(r[|r| - 1])
  {
    if s != [] && isSpace(s[|s| - 1]) then StripEnd(isSpace, s[..|s| - 1]) else s
  }

  /** Python `s.strip()` with `IsPythonSpace` or JavaScript `s.trim()`
      with `IsJsSpace`: the part of `s` between its leading and its trailing
      whitespace. */
  function Strip(isSpace: char -> bool, s: string): (r: string)
    ensures |r| <= |s|
    ensures r == [] || (!isSpace(r[0]) && !isSpace(r[|r| - 1]))
  {
    var t := StripStart(isSpace, s);
    var r := StripEnd(isSpace, t);
    assert r != [] ==> r[0] == t[0];
    r
  }

  /** The stripped text is a slice of the text with only whitespace around it. */
  lemma StripIsInfix(isSpace: char -> bool, s: string)
    ensures exists i, j :: 0 <= i <= j <= |s| && Strip(isSpace, s) == s[i..j] && AllSpace(isSpace, s[..i]) && AllSpace(isSpace, s[j..])
  {
    var t := StripStart(isSpace, s);
    var r := StripEnd(isSpace, t);
    var i, j := |s| - |t|, |s| - |t| + |r|;
    assert r == s[i..j] by {
      assert t == s[i..] && r == t[..|r|];
    }
    assert AllSpace(isSpace, s[j..]) by {
      assert s[j..] == t[|r|..];
    }
  }

  /** Stripping removes something only when the text has whitespace at one end. */
  lemma StripKeepsTrimmed(isSpace: char -> bool, s: string)
    requires s == [] || (!isSpace(s[0]) && !isSpace(s[|s| - 1]))
    ensures Strip(isSpace, s) == s
  {
    assert StripStart(isSpace, s) == s;
    assert StripEnd(isSpace, s) == s;
  }

  /** Stripping twice is stripping once. */
  lemma StripIdempotent(isSpace: char -> bool, s: string)
    ensures Strip(isSpace, Strip(isSpace, s)) == Strip(isSpace, s)
  {
    StripKeepsTrimmed(isSpace, Strip(isSpace, s));
  }

  /** The stripped text is empty exactly when the text is all whitespace. */
  lemma StripEmptyIffBlank(isSpace: char -> bool, s: string)
    ensures Strip(isSpace, s) == [] <==> AllSpace(isSpace, s)
  {
    StripIsInfix(isSpace, s);
    var i, j :| 0 <= i <= j <= |s| && Strip(isSpace, s) == s[i..j] && AllSpace(isSpace, s[..i]) && AllSpace(isSpace, s[j..]);
    if Strip(isSpace, s) == [] {
      assert i == j;
      forall k | 0 <= k < |s| ensures isSpace(s[k]) {
        if k < i { assert s[..i][k] == s[k]; } else { assert s[j..][k - j] == s[k]; }
      }
    }
  }
}

=== FILE: models.dfy ===
/** The `QRCode` model: one registry row, the table that holds the rows, and
    the two lookups the model class offers (number extraction and lookup by
    scanned content). */
module Models {
  import opened Common

  /** One row of the QRCode table. `createdDay` is the creation date as a day
      number; `name` and `description` are nullable columns. */
  datatype Record = Record(
    id: nat,
    number: string,
    name: Option<string>,
    description: Option<string>,
    rawContent: string,
    createdDay: int)

  const NoNamePlaceholder: string := "بدون اسم"
  const Separator: string := " - "

  /** Python truthiness of a nullable text column. */
  predicate HasText(v: Option<string>) {
    v.Some? && v.value != []
  }

  /** `__str__`: the number, a separator, and the name, or a fixed placeholder
      when the name is null or empty. */
  function Str(r: Record): (s: string)
    ensures |s| > |r.number| + |Separator|
    ensures s[..|r.number|] == r.number
    ensures s[|r.number|..|r.number| + |Separator|] == Separator
    ensures HasText(r.name) ==> s[|r.number| + |Separator|..] == r.name.value
    ensures !HasText(r.name) ==> s[|r.number| + |Separator|..] == NoNamePlaceholder
  {
    r.number + Separator + if HasText(r.name) then r.name.value else NoNamePlaceholder
  }

  // ---------------------------------------------------------------------
  // The table. Rows are kept newest first, the order `Meta.ordering`
  // (`-created_at`) gives to every query, so `.first()` is the newest match.
  // ---------------------------------------------------------------------

  predicate IdsDistinct(records: seq<Record>) {
    forall i, j :: 0 <= i < j < |records| ==> records[i].id != records[j].id
  }

  class Table {
    var records: seq<Record>
    var nextId: nat

    ghost predicate Valid()
      reads this
    {
      IdsDistinct(records) && forall i :: 0 <= i < |records| ==> records[i].id < nextId
    }

    constructor ()
      ensures Valid() && records == []
    {
      records := [];
      nextId := 1;
    }

    /** `QRCode.objects.create(...)`: a new row with a fresh id and today's
        date, placed first because it is the newest. */
    method Insert(number: string, name: Option<string>, description: Option<string>,
                  rawContent: string, today: int) returns (rec: Record)
      requires Valid()
      modifies this
      ensures Valid()
      ensures rec == Record(old(nextId), number, name, description, rawContent, today)
      ensures forall i :: 0 <= i < |old(records)| ==> old(records)[i].id != rec.id
      ensures records == [rec] + old(records)
    {
      rec := Record(nextId, number, name, description, rawContent, today);
      records := [rec] + records;
      nextId := nextId + 1;
    }
  }

  // ---------------------------------------------------------------------
  // extract_number_from_content
  // ---------------------------------------------------------------------

  /** `s[a..b]` is a maximal run of digits: exactly the text one match of
      `\d+` covers when `re.findall` scans `s`. */
  predicate IsRun(s: string, a: int, b: int) {
    && 0 <= a < b <= |s|
    && (forall k :: a <= k < b ==> IsDigit(s[k]))
    && (a == 0 || !IsDigit(s[a - 1]))
    && (b == |s| || !IsDigit(s[b]))
  }

  /** The run `s[a..b]` is the one `max(numbers, key=len)` picks: no run is
      longer, and every run that starts earlier is shorter. */
  ghost predicate IsFirstLongestRun(s: string, a: int, b: int) {
    && IsRun(s, a, b)
    && (forall c, d :: IsRun(s, c, d) ==> d - c <= b - a)
    && (forall c, d :: IsRun(s, c, d) && c < a ==> d - c < b - a)
  }

  /** The end of the digit run that starts at `i`. */
  function RunEnd(s: string, i: nat): (j: nat)
    requires i <= |s|
    ensures i <= j <= |s|
    ensures forall k :: i <= k < j ==> IsDigit(s[k])
    ensures j == |s| || !IsDigit(s[j])
    decreases |s| - i
  {
    if i < |s| && IsDigit(s[i]) then RunEnd(s, i + 1) else i
  }

  /** A position where no run is cut in two. */
  predicate AtBoundary(s: string, i: nat) {
    i <= |s| && (i == 0 || i == |s| || !IsDigit(s[i - 1]) || !IsDigit(s[i]))
  }

  /** The spans `re.findall(r'\d+', s)` reports from position `i` on, left to
      right: each one a maximal run, in increasing order. */
  function RunsFrom(s: string, i: nat): (spans: seq<(nat, nat)>)
    requires AtBoundary(s, i)
    ensures forall x :: 0 <= x < |spans| ==> i <= spans[x].0 && IsRun(s, spans[x].0, spans[x].1)
    ensures forall x, y :: 0 <= x < y < |spans| ==> spans[x].1 < spans[y].0
    decreases |s| - i
  {
    if i == |s| then []
    else if !IsDigit(s[i]) then RunsFrom(s, i + 1)
    else
      var j := RunEnd(s, i);
      var rest := RunsFrom(s, j);
      assert forall y :: 0 <= y < |rest| ==> j < rest[y].0;
      [(i, j)] + rest
  }

  /** `re.findall` misses no run. */
  lemma {:induction false} RunsFromComplete(s: string, i: nat, a: nat, b: nat)
    requires AtBoundary(s, i) && IsRun(s, a, b) && i <= a
    ensures (a, b) in RunsFrom(s, i)
    decreases |s| - i
  {
    if !IsDigit(s[i]) {
      RunsFromComplete(s, i + 1, a, b);
    } else {
      var j := RunEnd(s, i);
      if a != i {
        assert !IsDigit(s[a - 1]);
        RunsFromComplete(s, j, a, b);
      }
    }
  }

  function SpanLength(p: (nat, nat)): int {
    p.1 - p.0
  }

  /** The index `max(..., key=len)` returns: the first of the longest. */
  function FirstLongest(spans: seq<(nat, nat)>): (k: nat)
    requires |spans| > 0
    ensures k < |spans|
    ensures forall x :: 0 <= x < |spans| ==> SpanLength(spans[x]) <= SpanLength(spans[k])
    ensures forall x :: 0 <= x < k ==> SpanLength(spans[x]) < SpanLength(spans[k])
  {
    if |spans| == 1 then 0
    else
      var k := FirstLongest(spans[..|spans| - 1]);
      if SpanLength(spans[|spans| - 1]) > SpanLength(spans[k]) then |spans| - 1 else k
  }

  /** `extract_number_from_content`: nothing for empty content, all-digit
      content unchanged, otherwise the longest digit run (the first on ties),
      or nothing when there is no digit. */
  function ExtractNumber(content: string): (r: Option<string>)
    ensures content == [] ==> r == None
    ensures content != [] && AllDigits(content) ==> r == Some(content)
    ensures r.Some? ==> r.value != [] && AllDigits(r.value)
  {
    if content == [] then None
    else if AllDigits(content) then Some(content)
    else
      var spans := RunsFrom(content, 0);
      if spans == [] then None
      else
        var p := spans[FirstLongest(spans)];
        Some(content[p.0..p.1])
  }

  /** At most one run is the first longest, so the property below fixes the
      result completely. */
  lemma FirstLongestRunUnique(s: string, a: int, b: int, c: int, d: int)
    requires IsFirstLongestRun(s, a, b) && IsFirstLongestRun(s, c, d)
    ensures a == c && b == d
  {
    assert d - c <= b - a && b - a <= d - c;
  }

  lemma {:induction false} NoDigitNoRun(s: string, i: nat)
    requires AtBoundary(s, i)
    requires RunsFrom(s, i) == []
    ensures forall k :: i <= k < |s| ==> !IsDigit(s[k])
  {
    forall k | i <= k < |s| ensures !IsDigit(s[k]) {
      if IsDigit(s[k]) {
        var a := k;
        while a > 0 && IsDigit(s[a - 1])
          invariant 0 <= a <= k
          invariant forall m :: a <= m <= k ==> IsDigit(s[m])
        {
          a := a - 1;
        }
        var b := RunEnd(s, k);
        // a < i would put `i` strictly inside a run, which AtBoundary excludes
        if i <= a {
          RunsFromComplete(s, i, a, b);
        }
      }
    }
  }

  /** What `extract_number_from_content` computes, stated without `re`:
      nothing exactly when the content has no digit, otherwise the first
      longest maximal run of digits. */
  lemma ExtractNumberIsFirstLongestRun(content: string)
    ensures ExtractNumber(content).None? <==> forall k :: 0 <= k < |content| ==> !IsDigit(content[k])
    ensures forall a, b :: IsFirstLongestRun(content, a, b) ==> ExtractNumber(content) == Some(content[a..b])
    ensures ExtractNumber(content).Some? ==> exists a, b :: IsFirstLongestRun(content, a, b)
  {
    if content == [] {
    } else if AllDigits(content) {
      assert IsDigit(content[0]);
      forall c, d | IsRun(content, c, d) ensures c == 0 && d == |content| {
      }
      assert IsFirstLongestRun(content, 0, |content|);
      forall a, b | IsFirstLongestRun(content, a, b) ensures content[a..b] == content {
        FirstLongestRunUnique(content, a, b, 0, |content|);
      }
    } else {
      var spans := RunsFrom(content, 0);
      if spans == [] {
        forall a, b | IsRun(content, a, b) ensures false {
          RunsFromComplete(content, 0, a, b);
        }
        NoDigitNoRun(content, 0);
      } else {
        var k := FirstLongest(spans);
        var p := spans[k];
        assert IsDigit(content[p.0]);
        forall c, d | IsRun(content, c, d) ensures d - c <= p.1 - p.0 && (c < p.0 ==> d - c < p.1 - p.0) {
          RunsFromComplete(content, 0, c, d);
          var x :| 0 <= x < |spans| && spans[x] == (c, d);
        }
        assert IsFirstLongestRun(content, p.0, p.1);
        forall a, b | IsFirstLongestRun(content, a, b) ensures content[a..b] == content[p.0..p.1] {
          FirstLongestRunUnique(content, a, b, p.0, p.1);
        }
      }
    }
  }

  // ---------------------------------------------------------------------
  // find_by_content
  // ---------------------------------------------------------------------

  /** The two columns the lookup filters on. */
  datatype Column = RawContent | Number

  function ValueOf(r: Record, c: Column): string {
    match c
    case RawContent => r.rawContent
    case Number => r.number
  }

  predicate AnyWith(records: seq<Record>, c: Column, v: string) {
    exists i :: 0 <= i < |records| && ValueOf(records[i], c) == v
  }

  /** `records[k]` is the newest row whose column `c` equals `v`. */
  predicate NewestWith(records: seq<Record>, k: int, c: Column, v: string) {
    && 0 <= k < |records|
    && ValueOf(records[k], c) == v
    && forall j :: 0 <= j < k ==> ValueOf(records[j], c) != v
  }

  /** `QRCode.objects.filter(<c>=v).first()`. */
  function FilterFirst(records: seq<Record>, c: Column, v: string): (r: Option<Record>)
    ensures r.None? <==> !AnyWith(records, c, v)
    ensures r.Some? ==> exists k :: NewestWith(records, k, c, v) && r.value == records[k]
  {
    if records == [] then None
    else if ValueOf(records[0], c) == v then
      assert NewestWith(records, 0, c, v);
      Some(records[0])
    else
      var r := FilterFirst(records[1..], c, v);
      assert AnyWith(records[1..], c, v) <==> AnyWith(records, c, v) by {
        if AnyWith(records, c, v) {
          var i :| 0 <= i < |records| && ValueOf(records[i], c) == v;
          assert records[1..][i - 1] == records[i];
        }
      }
      if r.Some? then
        assert exists k :: NewestWith(records, k, c, v) && r.value == records[k] by {
          var k :| NewestWith(records[1..], k, c, v) && r.value == records[1..][k];
          assert NewestWith(records, k + 1, c, v);
        }
        r
      else r
  }

  /** `find_by_content`: the newest row whose raw content is the content;
      failing that, the newest row whose number is the number extracted from
      the content; failing that, nothing. */
  function FindByContent(records: seq<Record>, content: string): (r: Option<Record>)
    ensures AnyWith(records, RawContent, content) ==>
              exists k :: NewestWith(records, k, RawContent, content) && r == Some(records[k])
    ensures !AnyWith(records, RawContent, content) ==>
              match ExtractNumber(content)
              case None => r == None
              case Some(n) =>
                if AnyWith(records, Number, n)
                then exists k :: NewestWith(records, k, Number, n) && r == Some(records[k])
                else r == None
  {
    var byRaw := FilterFirst(records, RawContent, content);
    if byRaw.Some? then byRaw
    else
      match ExtractNumber(content)
      case None => None
      case Some(n) => FilterFirst(records, Number, n)
  }

  /** A found row always matches the content, by raw content or by number. */
  lemma FoundRowMatches(records: seq<Record>, content: string)
    requires FindByContent(records, content).Some?
    ensures FindByContent(records, content).value in records
    ensures var r := FindByContent(records, content).value;
            r.rawContent == content || Some(r.number) == ExtractNumber(content)
  {
  }
}

=== FILE: scanner.dfy ===
/** `QRScanner`: the camera scan loop around the decoding engine. The engine
    is reduced to whether it exists and whether it is running; the outcome of
    starting it, and the 2000 ms cooldown timer, are explicit events. Codes
    handed to the page controller are recorded in `forwarded`. */
module Scanner {
  import opened Common

  /** A `QrScanner` instance of the decoding library. */
  datatype Engine = Engine(running: bool)

  /** What `showCameraError` displays: a message and its suggestions. */
  datatype CameraError = CameraError(message: string, suggestions: seq<string>)

  /** What the scanner area (`scannerArea.innerHTML`) holds: the markup the
      page ships with, the placeholder of `showScannerPlaceholder`, the error
      box of `showCameraError`, or the video element of a started scan. */
  datatype ScannerArea = Initial | Placeholder | ErrorBox(error: CameraError) | Video

  /** Why the camera probe `checkCameraSupport` answers false. */
  datatype ProbeFailure = NoMediaApi | NoVideoInput | ProbeThrew

  const NoMediaApiMessage: string :=
    "المتصفح لا يدعم الوصول إلى الكاميرا. يرجى استخدام متصفح حديث مثل Chrome أو Firefox."
  const NoVideoInputMessage: string := "لا توجد كاميرا متاحة على هذا الجهاز."
  const ProbeThrewMessage: string := "حدث خطأ أثناء التحقق من دعم الكاميرا."

  /** The message the probe shows for each failure: a specific one, never the
      generic camera error. */
  function ProbeMessage(f: ProbeFailure): (m: string)
    ensures m != [] && m != GenericErrorMessage
  {
    match f
    case NoMediaApi => NoMediaApiMessage
    case NoVideoInput => NoVideoInputMessage
    case ProbeThrew => ProbeThrewMessage
  }

  /** Each probe failure has its own message. */
  lemma ProbeMessagesDistinct(a: ProbeFailure, b: ProbeFailure)
    requires a != b
    ensures ProbeMessage(a) != ProbeMessage(b)
  {
  }

  /** How one `startScanning` ends. `CameraUnsupported` is the camera probe
      failing; `PermissionFailed` is the explicit permission request throwing;
      `EngineFailed` is the engine's `start()` throwing; each names the
      error's `name`. */
  datatype StartOutcome =
    | CameraUnsupported(failure: ProbeFailure)
    | PermissionFailed(errorName: ErrorName)
    | EngineFailed(errorName: ErrorName)
    | EngineStarted

  const GenericErrorMessage: string := "حدث خطأ أثناء تشغيل الكاميرا"

  /** The `name` of the error a camera call throws: the five names the
      classification knows, or any other. `OtherError` stands only for a
      name that is none of the five; `ErrorNameOf` is the reading of a raw
      name. */
  datatype ErrorName =
    | NotAllowedError
    | NotFoundError
    | NotSupportedError
    | NotReadableError
    | OverconstrainedError
    | OtherError(name: string)

  predicate IsKnownName(name: string) {
    name == "NotAllowedError" || name == "NotFoundError" || name == "NotSupportedError"
    || name == "NotReadableError" || name == "OverconstrainedError"
  }

  /** The `error.name === ...` tests: a known name becomes its constructor,
      and any other name is kept in `OtherError`. */
  function ErrorNameOf(name: string): (e: ErrorName)
    ensures e.OtherError? <==> !IsKnownName(name)
    ensures e.OtherError? ==> e.name == name
  {
    if name == "NotAllowedError" then NotAllowedError
    else if name == "NotFoundError" then NotFoundError
    else if name == "NotSupportedError" then NotSupportedError
    else if name == "NotReadableError" then NotReadableError
    else if name == "OverconstrainedError" then OverconstrainedError
    else OtherError(name)
  }

  /** Shown when a caller passes no suggestions. */
  const DefaultSuggestions: seq<string> := [
    "تأكد من منح المتصفح الإذن بالوصول إلى الكاميرا",
    "تحقق من أن الكاميرا غير مستخدمة من تطبيق آخر",
    "جرب إعادة تحميل الصفحة أو إعادة تشغيل المتصفح",
    "في بيئة الإنتاج، تأكد من استخدام HTTPS"]

  const NotAllowedMessage: string := "تم رفض الإذن للوصول إلى الكاميرا"
  const NotAllowedSuggestions: seq<string> := [
    "اضغط على أيقونة الكاميرا في شريط العنوان واختر \"السماح\"",
    "في Chrome: اذهب إلى الإعدادات > الخصوصية والأمان > إعدادات الموقع > الكاميرا",
    "في Firefox: اضغط على أيقونة القفل بجانب العنوان واختر \"السماح بالكاميرا\"",
    "أعد تحميل الصفحة بعد تغيير الإعدادات"]
  const NotFoundMessage: string := "لا توجد كاميرا متاحة على هذا الجهاز"
  const NotFoundSuggestions: seq<string> := [
    "تأكد من توصيل كاميرا ويب خارجية إذا كنت تستخدم حاسوباً مكتبياً",
    "تحقق من أن الكاميرا تعمل في تطبيقات أخرى",
    "أعد تشغيل المتصفح أو الجهاز"]
  const NotSupportedMessage: string := "المتصفح لا يدعم الوصول إلى الكاميرا"
  const NotSupportedSuggestions: seq<string> := [
    "استخدم متصفحاً حديثاً مثل Chrome أو Firefox أو Edge",
    "تأكد من تحديث المتصفح إلى أحدث إصدار",
    "في بيئة الإنتاج، تأكد من استخدام HTTPS"]
  const NotReadableMessage: string := "الكاميرا مستخدمة من تطبيق آخر"
  const NotReadableSuggestions: seq<string> := [
    "أغلق جميع التطبيقات الأخرى التي قد تستخدم الكاميرا",
    "أغلق علامات تبويب المتصفح الأخرى التي تستخدم الكاميرا",
    "أعد تشغيل المتصفح"]
  const OverconstrainedMessage: string := "إعدادات الكاميرا المطلوبة غير متاحة"
  const OverconstrainedSuggestions: seq<string> := [
    "جرب كاميرا أخرى إذا كان لديك أكثر من كاميرا",
    "أعد تشغيل التطبيق"]

  /** The error-name chain of `handleScannerError`: a message and its
      suggestions for each of the five known names; the generic message and
      no suggestions for any other name. */
  function ClassifyCameraError(name: ErrorName): (e: CameraError)
    ensures name.OtherError? ==> e == CameraError(GenericErrorMessage, [])
    ensures !name.OtherError? ==> e.message != GenericErrorMessage && e.suggestions != []
  {
    match name
    case NotAllowedError => CameraError(NotAllowedMessage, NotAllowedSuggestions)
    case NotFoundError => CameraError(NotFoundMessage, NotFoundSuggestions)
    case NotSupportedError => CameraError(NotSupportedMessage, NotSupportedSuggestions)
    case NotReadableError => CameraError(NotReadableMessage, NotReadableSuggestions)
    case OverconstrainedError => CameraError(OverconstrainedMessage, OverconstrainedSuggestions)
    case OtherError(_) => CameraError(GenericErrorMessage, [])
  }

  /** The five known names are told apart: no two share a message. */
  lemma KnownErrorsDistinct(a: ErrorName, b: ErrorName)
    requires !a.OtherError? && !b.OtherError? && a != b
    ensures ClassifyCameraError(a).message != ClassifyCameraError(b).message
  {
  }

  /** `showCameraError`: an empty list of suggestions is replaced by the
      default list. */
  function ShownSuggestions(suggestions: seq<string>): (shown: seq<string>)
    ensures suggestions != [] ==> shown == suggestions
    ensures suggestions == [] ==> shown == DefaultSuggestions
    ensures |shown| > 0
  {
    if |suggestions| > 0 then suggestions else DefaultSuggestions
  }

  /** The error box `handleScannerError` shows for an error name. */
  function ErrorBoxFor(name: ErrorName): (a: ScannerArea)
    ensures a.ErrorBox? && a.error.message == ClassifyCameraError(name).message
    ensures a.error.suggestions == ShownSuggestions(ClassifyCameraError(name).suggestions)
  {
    var e := ClassifyCameraError(name);
    ErrorBox(CameraError(e.message, ShownSuggestions(e.suggestions)))
  }

  /** Whether `window.qrManager` is defined. In app.js the controller is bound
      with a top-level `let`, which does not create a property of `window`. */
  const ManagerOnWindow: bool := false

  class QRScanner {
    var scanner: Option<Engine>
    var isScanning: bool
    var hasFoundResult: bool
    /** Cooldown timers set by `handleScanResult` that have not fired yet. */
    var pendingCooldowns: nat
    var forwarded: seq<string>
    var area: ScannerArea

    /** Scanning implies an engine, and a handled result always has a cooldown
        coming that will clear it. */
    ghost predicate Valid()
      reads this
    {
      (isScanning ==> scanner.Some?) && (hasFoundResult ==> pendingCooldowns > 0)
    }

    /** The constructor and `init`: no engine, both flags clear; the camera
        probe runs once and a failing probe shows its error box. */
    constructor (probe: Option<ProbeFailure>)
      ensures Valid()
      ensures scanner == None && !isScanning && !hasFoundResult
      ensures pendingCooldowns == 0 && forwarded == []
      ensures probe.None? ==> area == Initial
      ensures probe.Some? ==> area == ErrorBox(CameraError(ProbeMessage(probe.value), DefaultSuggestions))
    {
      scanner := None;
      isScanning := false;
      hasFoundResult := false;
      pendingCooldowns := 0;
      forwarded := [];
      area := Initial;
      new;
      if probe.Some? {
        ShowCameraError(ProbeMessage(probe.value), []);
      }
    }

    /** `showCameraError`: the area is replaced by the error box. */
    method ShowCameraError(message: string, suggestions: seq<string>)
      modifies this`area
      ensures area == ErrorBox(CameraError(message, ShownSuggestions(suggestions)))
    {
      area := ErrorBox(CameraError(message, ShownSuggestions(suggestions)));
    }

    /** `stopScanning`: the engine is stopped and dropped, both flags cleared,
        and the area replaced by the placeholder. */
    method StopScanning()
      requires Valid()
      modifies this`scanner, this`isScanning, this`hasFoundResult, this`area
      ensures Valid()
      ensures scanner == None && !isScanning && !hasFoundResult
      ensures area == Placeholder
    {
      if scanner.Some? {
        scanner := None;
      }
      isScanning := false;
      hasFoundResult := false;
      area := Placeholder;
    }

    /** `handleScannerError` as written: show the classified error, then stop.
        Stopping puts the placeholder back, so the error box is replaced in
        the same turn and never stays on screen. */
    method HandleScannerErrorAsWritten(errorName: ErrorName)
      requires Valid()
      modifies this`scanner, this`isScanning, this`hasFoundResult, this`area
      ensures Valid()
      ensures scanner == None && !isScanning && !hasFoundResult
      ensures area == Placeholder && !area.ErrorBox?
    {
      var e := ClassifyCameraError(errorName);
      ShowCameraError(e.message, e.suggestions);
      StopScanning();
    }

    /** `handleScannerError` corrected: stop first, then show the classified
        error, which stays on screen. */
    method HandleScannerError(errorName: ErrorName)
      requires Valid()
      modifies this`scanner, this`isScanning, this`hasFoundResult, this`area
      ensures Valid()
      ensures scanner == None && !isScanning && !hasFoundResult
      ensures area == ErrorBoxFor(errorName)
    {
      StopScanning();
      var e := ClassifyCameraError(errorName);
      ShowCameraError(e.message, e.suggestions);
    }

    /** `startScanning`, with errors handled by the corrected
        `handleScannerError`. A failed probe shows its error and changes
        nothing else; a failed permission request or engine start ends
        stopped with the error shown; a started engine runs in the video
        area. */
    method StartScanning(outcome: StartOutcome)
      requires Valid()
      modifies this`scanner, this`isScanning, this`hasFoundResult, this`area
      ensures Valid()
      ensures outcome.CameraUnsupported? ==>
                && scanner == old(scanner) && isScanning == old(isScanning) && hasFoundResult == old(hasFoundResult)
                && area == ErrorBox(CameraError(ProbeMessage(outcome.failure), DefaultSuggestions))
      ensures outcome.EngineStarted? ==>
                scanner == Some(Engine(true)) && isScanning && !hasFoundResult && area == Video
      ensures outcome.PermissionFailed? || outcome.EngineFailed? ==>
                && scanner == None && !isScanning && !hasFoundResult
                && area == ErrorBoxFor(outcome.errorName)
    {
      match outcome
      case CameraUnsupported(failure) =>
        ShowCameraError(ProbeMessage(failure), []);
      case PermissionFailed(name) =>
        HandleScannerError(name);
      case EngineFailed(name) =>
        area := Video;
        scanner := Some(Engine(false));
        HandleScannerError(name);
      case EngineStarted =>
        area := Video;
        scanner := Some(Engine(true));
        isScanning := true;
        hasFoundResult := false;
    }

    /** `handleScanResult` with the forwarding condition corrected: while a
        result is being handled nothing happens; otherwise the flag is set,
        the engine paused, the code forwarded once and a cooldown scheduled. */
    method HandleScanResult(code: string)
      requires Valid()
      modifies this`scanner, this`hasFoundResult, this`pendingCooldowns, this`forwarded
      ensures Valid()
      ensures old(hasFoundResult) ==>
                && scanner == old(scanner) && hasFoundResult && pendingCooldowns == old(pendingCooldowns)
                && forwarded == old(forwarded)
      ensures !old(hasFoundResult) ==>
                && hasFoundResult && pendingCooldowns == old(pendingCooldowns) + 1
                && forwarded == old(forwarded) + [code]
                && scanner == (if old(scanner).Some? then Some(Engine(false)) else None)
    {
      if hasFoundResult {
        return;
      }
      hasFoundResult := true;
      if scanner.Some? {
        scanner := Some(Engine(false));
      }
      forwarded := forwarded + [code];
      pendingCooldowns := pendingCooldowns + 1;
    }

    /** `handleScanResult` as written: the same guard, pause and cooldown,
        but the code is forwarded only when `window.qrManager` is defined. */
    method HandleScanResultAsWritten(code: string, managerOnWindow: bool)
      requires Valid()
      modifies this`scanner, this`hasFoundResult, this`pendingCooldowns, this`forwarded
      ensures Valid()
      ensures hasFoundResult
      ensures old(hasFoundResult) ==> scanner == old(scanner) && pendingCooldowns == old(pendingCooldowns)
      ensures !old(hasFoundResult) ==>
                && pendingCooldowns == old(pendingCooldowns) + 1
                && scanner == (if old(scanner).Some? then Some(Engine(false)) else None)
      ensures forwarded == old(forwarded) + (if !old(hasFoundResult) && managerOnWindow then [code] else [])
    {
      if hasFoundResult {
        return;
      }
      hasFoundResult := true;
      if scanner.Some? {
        scanner := Some(Engine(false));
      }
      if managerOnWindow {
        forwarded := forwarded + [code];
      }
      pendingCooldowns := pendingCooldowns + 1;
    }

    /** The cooldown timer fires: the flag is cleared, and the engine is
        restarted only when scanning is still on and the engine exists.
        `restarted` is whether the engine's `start()` succeeded. */
    method CooldownElapsed(restarted: bool)
      requires Valid() && pendingCooldowns > 0
      modifies this`scanner, this`hasFoundResult, this`pendingCooldowns
      ensures Valid()
      ensures !hasFoundResult && pendingCooldowns == old(pendingCooldowns) - 1
      ensures old(isScanning) && old(scanner).Some? ==> scanner == Some(Engine(restarted))
      ensures !(old(isScanning) && old(scanner).Some?) ==> scanner == old(scanner)
    {
      pendingCooldowns := pendingCooldowns - 1;
      hasFoundResult := false;
      if isScanning && scanner.Some? {
        scanner := Some(Engine(restarted));
      }
    }
  }

  /** Within one detection burst (no cooldown and no stop in between) only
      the first code is forwarded. */
  method BurstForwardsOnce(s: QRScanner, first: string, second: string, third: string)
    requires s.Valid() && !s.hasFoundResult
    modifies s
    ensures s.forwarded == old(s.forwarded) + [first]
  {
    s.HandleScanResult(first);
    s.HandleScanResult(second);
    s.HandleScanResult(third);
  }

  /** As written, with the controller bound by `let`, a detected code never
      reaches the controller. */
  method AsWrittenNeverForwards(s: QRScanner, code: string)
    requires s.Valid()
    modifies s
    ensures s.forwarded == old(s.forwarded)
  {
    s.HandleScanResultAsWritten(code, ManagerOnWindow);
  }

  /** The same cycle as written: the scanner is running again and ready, but
      the detected code never reaches the controller. */
  method ScanCycleAsWritten(s: QRScanner, code: string)
    requires s.Valid()
    modifies s
    ensures s.isScanning && !s.hasFoundResult && s.scanner == Some(Engine(true))
    ensures s.forwarded == old(s.forwarded)
  {
    s.StartScanning(EngineStarted);
    s.HandleScanResultAsWritten(code, ManagerOnWindow);
    s.CooldownElapsed(true);
  }

  /** A full cycle with the corrected `handleScanResult`: start, detect, cool down. The scanner is running again
      and ready for the next burst, with exactly one code forwarded. */
  method ScanCycle(s: QRScanner, code: string)
    requires s.Valid()
    modifies s
    ensures s.isScanning && !s.hasFoundResult && s.scanner == Some(Engine(true))
    ensures s.forwarded == old(s.forwarded) + [code]
  {
    s.StartScanning(EngineStarted);
    s.HandleScanResult(code);
    s.CooldownElapsed(true);
  }
}

=== FILE: serializers.dfy ===
/** The REST framework serializers: field validation of the request bodies,
    the `raw_content` defaulting of both `create` methods, and the verify
    serializer's content check. */
module Serializers {
  import opened Common
  import opened Models

  // ---------------------------------------------------------------------
  // Field validation. A `CharField` trims surrounding whitespace (Python's
  // `str.strip()`), refuses a missing value when required, refuses a blank
  // value unless `allow_blank`, and then runs its validators on the trimmed
  // value, collecting every failure: longer than `max_length`, and holding
  // a NUL character.
  // ---------------------------------------------------------------------

  datatype FieldError =
    | Required(field: string)
    | Blank(field: string)
    | TooLong(field: string, maxLength: nat)
    | NullCharacter(field: string)

  datatype CharField = CharField(
    field: string,
    required: bool,
    allowBlank: bool,
    maxLength: Option<nat>)

  /** What validating one field gives: absent (not required), a cleaned value,
      or the errors found. */
  datatype FieldResult = Omitted | Accepted(value: string) | Rejected(errors: seq<FieldError>)

  predicate WithinMax(f: CharField, v: string) {
    f.maxLength.None? || |v| <= f.maxLength.value
  }

  /** The validators' findings on a trimmed value, in the order the field
      runs them: the length limit, then the NUL check. */
  function ValidatorErrors(f: CharField, t: string): (es: seq<FieldError>)
    ensures es == [] <==> WithinMax(f, t) && '\0' !in t
    ensures NullCharacter(f.field) in es <==> '\0' in t
    ensures f.maxLength.Some? ==> (TooLong(f.field, f.maxLength.value) in es <==> !WithinMax(f, t))
    ensures forall e :: e in es ==> (e.TooLong? || e.NullCharacter?) && e.field == f.field
  {
    (if WithinMax(f, t) then [] else [TooLong(f.field, f.maxLength.value)])
    + (if '\0' in t then [NullCharacter(f.field)] else [])
  }

  function RunCharField(f: CharField, input: Option<string>): (r: FieldResult)
    ensures r.Omitted? <==> input.None? && !f.required
    ensures r.Accepted? <==>
              && input.Some? && (f.allowBlank || Strip(IsPythonSpace, input.value) != [])
              && WithinMax(f, Strip(IsPythonSpace, input.value)) && '\0' !in Strip(IsPythonSpace, input.value)
    ensures r.Accepted? ==> r.value == Strip(IsPythonSpace, input.value)
    ensures r.Rejected? ==> r.errors != [] && forall e :: e in r.errors ==> e.field == f.field
    ensures input.None? && f.required ==> r == Rejected([Required(f.field)])
    ensures input.Some? && Strip(IsPythonSpace, input.value) == [] && !f.allowBlank ==> r == Rejected([Blank(f.field)])
    ensures input.Some? && (Strip(IsPythonSpace, input.value) != [] || f.allowBlank) && r.Rejected? ==>
              r.errors == ValidatorErrors(f, Strip(IsPythonSpace, input.value))
  {
    match input
    case None => if f.required then Rejected([Required(f.field)]) else Omitted
    case Some(s) =>
      var t := Strip(IsPythonSpace, s);
      var es := ValidatorErrors(f, t);
      if t == [] && !f.allowBlank then Rejected([Blank(f.field)])
      else if es != [] then Rejected(es)
      else Accepted(t)
  }

  /** `QRCodeCreateSerializer` fields. */
  const NumberField := CharField("number", true, false, Some(100))
  const NameField := CharField("name", false, true, Some(200))
  const DescriptionField := CharField("description", false, true, None)

  /** The JSON body of a create request; an absent key is `None`. */
  datatype CreateBody = CreateBody(number: Option<string>, name: Option<string>, description: Option<string>)

  /** `validated_data`: the keys present after validation. */
  datatype ValidatedData = ValidatedData(
    number: string,
    name: Option<string>,
    description: Option<string>,
    rawContent: Option<string>)

  /** The errors a field result contributes to the error report. */
  function ErrorOf(r: FieldResult): (es: seq<FieldError>)
    requires r.Rejected? ==> r.errors != []
    ensures es == [] <==> !r.Rejected?
  {
    if r.Rejected? then r.errors else []
  }

  function ValueOrAbsent(r: FieldResult): Option<string> {
    if r.Accepted? then Some(r.value) else None
  }

  /** `is_valid()` on `QRCodeCreateSerializer`: the number is required, not
      blank and at most 100 characters once trimmed; the name is optional, may
      be blank, and is at most 200 characters; the description is optional and
      may be blank; no trimmed value may hold a NUL. Every present field is
      kept trimmed, and all field errors are reported together. */
  function ValidateCreate(body: CreateBody): (r: Result<ValidatedData, seq<FieldError>>)
    ensures r.Ok? <==>
              && body.number.Some? && 0 < |Strip(IsPythonSpace, body.number.value)| <= 100
              && '\0' !in Strip(IsPythonSpace, body.number.value)
              && (body.name.Some? ==>
                    |Strip(IsPythonSpace, body.name.value)| <= 200 && '\0' !in Strip(IsPythonSpace, body.name.value))
              && (body.description.Some? ==> '\0' !in Strip(IsPythonSpace, body.description.value))
    ensures r.Ok? ==> r.value.number == Strip(IsPythonSpace, body.number.value) && r.value.rawContent.None?
    ensures r.Ok? ==> r.value.name == if body.name.Some? then Some(Strip(IsPythonSpace, body.name.value)) else None
    ensures r.Ok? ==>
              r.value.description ==
                if body.description.Some? then Some(Strip(IsPythonSpace, body.description.value)) else None
    ensures r.Err? ==> r.error != []
    ensures r.Err? ==>
              r.error == ErrorOf(RunCharField(NumberField, body.number)) + ErrorOf(RunCharField(NameField, body.name))
                         + ErrorOf(RunCharField(DescriptionField, body.description))
    ensures body.number.None? ==> r.Err? && r.error[0] == Required(NumberField.field)
    ensures body.number.Some? && Strip(IsPythonSpace, body.number.value) == [] ==>
              r.Err? && r.error[0] == Blank(NumberField.field)
  {
    var number := RunCharField(NumberField, body.number);
    var name := RunCharField(NameField, body.name);
    var description := RunCharField(DescriptionField, body.description);
    var es := ErrorOf(number) + ErrorOf(name) + ErrorOf(description);
    if es == [] then
      Ok(ValidatedData(number.value, ValueOrAbsent(name), ValueOrAbsent(description), None))
    else Err(es)
  }

  /** The in-place update `QRCodeSerializer.create` makes to `validated_data`
      before saving: `raw_content` defaults to the number. */
  function DefaultRawContent(d: ValidatedData): (r: ValidatedData)
    ensures r.rawContent.Some?
    ensures d.rawContent.Some? ==> r == d
    ensures d.rawContent.None? ==> r == d.(rawContent := Some(d.number))
  {
    if d.rawContent.None? then d.(rawContent := Some(d.number)) else d
  }

  /** `QRCodeSerializer.create`: save a row whose raw content is the one
      supplied, or the number when none was supplied. */
  method ModelSerializerCreate(table: Table, d: ValidatedData, today: int) returns (rec: Record)
    requires table.Valid()
    modifies table
    ensures table.Valid()
    ensures table.records == [rec] + old(table.records)
    ensures rec.number == d.number && rec.name == d.name && rec.description == d.description
    ensures rec.rawContent == if d.rawContent.Some? then d.rawContent.value else d.number
    ensures rec.createdDay == today
  {
    var data := DefaultRawContent(d);
    rec := table.Insert(data.number, data.name, data.description, data.rawContent.value, today);
  }

  /** `QRCodeCreateSerializer.create`: save a row whose raw content is always
      the number. */
  method CreateSerializerCreate(table: Table, d: ValidatedData, today: int) returns (rec: Record)
    requires table.Valid()
    modifies table
    ensures table.Valid()
    ensures table.records == [rec] + old(table.records)
    ensures forall i :: 0 <= i < |old(table.records)| ==> old(table.records)[i].id != rec.id
    ensures rec.number == d.number && rec.name == d.name && rec.description == d.description
    ensures rec.rawContent == d.number
    ensures rec.createdDay == today
  {
    var data := d.(rawContent := Some(d.number));
    rec := table.Insert(data.number, data.name, data.description, data.rawContent.value, today);
  }

  // ---------------------------------------------------------------------
  // QRCodeVerifySerializer
  // ---------------------------------------------------------------------

  const ContentField := CharField("content", true, false, None)

  /** `validate_content`: a value that is empty or only whitespace is
      refused; any other value is returned stripped. */
  function ValidateContent(value: string): (r: Result<string, FieldError>)
    ensures r.Err? <==> AllSpace(IsPythonSpace, value)
    ensures r.Ok? ==>
              r.value != [] && !IsPythonSpace(r.value[0]) && !IsPythonSpace(r.value[|r.value| - 1])
    ensures r.Ok? ==> r.value == Strip(IsPythonSpace, value)
  {
    StripEmptyIffBlank(IsPythonSpace, value);
    if value == [] || Strip(IsPythonSpace, value) == [] then Err(Blank(ContentField.field))
    else Ok(Strip(IsPythonSpace, value))
  }

  /** Validating the validated content again changes nothing. */
  lemma ValidateContentIdempotent(value: string)
    requires ValidateContent(value).Ok?
    ensures ValidateContent(ValidateContent(value).value) == ValidateContent(value)
  {
    StripIdempotent(IsPythonSpace, value);
  }

  /** `is_valid()` on `QRCodeVerifySerializer`: the `content` field, then
      `validate_content`. */
  function ValidateVerify(content: Option<string>): (r: Result<string, seq<FieldError>>)
    ensures r.Ok? <==>
              content.Some? && !AllSpace(IsPythonSpace, content.value) && '\0' !in Strip(IsPythonSpace, content.value)
    ensures r.Ok? ==> r.value == Strip(IsPythonSpace, content.value)
    ensures r.Err? ==> r.error != []
    ensures content.None? ==> r == Err([Required(ContentField.field)])
    ensures content.Some? && AllSpace(IsPythonSpace, content.value) ==> r == Err([Blank(ContentField.field)])
    ensures content.Some? && !AllSpace(IsPythonSpace, content.value) && '\0' in Strip(IsPythonSpace, content.value) ==>
              r == Err([NullCharacter(ContentField.field)])
  {
    match content
    case None => Err([Required(ContentField.field)])
    case Some(s) =>
      var t := Strip(IsPythonSpace, s);
      StripEmptyIffBlank(IsPythonSpace, s);
      match RunCharField(ContentField, content)
      case Accepted(v) =>
        StripIdempotent(IsPythonSpace, s);
        (match ValidateContent(v)
         case Ok(c) => Ok(c)
         case Err(e) => Err([e]))
      case Rejected(es) =>
        assert t != [] ==> es == ValidatorErrors(ContentField, t);
        assert ValidatorErrors(ContentField, t) == if '\0' in t then [NullCharacter(ContentField.field)] else [];
        Err(es)
      case Omitted => Err([Required(ContentField.field)])
  }
}

=== FILE: sw.dfy ===
/** The service worker's offline cache: the install handler fills the
    versioned cache, the activate handler deletes every other cache, and the
    fetch handler answers cache-first. The browser's cache store is a class
    whose named caches map a request URL to a stored response; the network is
    a parameter. */
module ServiceWorker {
  import opened Common

  const CacheName: string := "qr-manager-v1"

  const UrlsToCache: seq<string> := [
    "/",
    "/static/css/style.css",
    "/static/js/app.js",
    "/static/js/scanner.js",
    "/static/js/pwa.js",
    "/static/manifest.json",
    "/static/icons/icon-192x192.png",
    "https://cdnjs.cloudflare.com/ajax/libs/font-awesome/6.4.0/css/all.min.css",
    "https://fonts.googleapis.com/css2?family=Cairo:wght@300;400;600;700&display=swap",
    "https://unpkg.com/qr-scanner@1.4.2/qr-scanner.min.js"]

  /** `Response.type`. */
  datatype ResponseType = Basic | Cors | Opaque | OpaqueRedirect | Error | Default

  datatype Response = Response(url: string, status: nat, kind: ResponseType, body: string)

  /** The parts of a request the handlers look at. */
  datatype Request = Request(url: string, destination: string)

  /** One named cache: request URL to stored response. */
  type Cache = map<string, Response>

  /** `cache.addAll` accepts a response that is not a network error and has
      an ok status other than 206 (partial content). */
  predicate AddAllAccepts(r: Response) {
    r.kind != Error && 200 <= r.status <= 299 && r.status != 206
  }

  /** The fetch handler stores a network copy only of a same-origin 200. */
  predicate Cacheable(r: Response) {
    r.status == 200 && r.kind == Basic
  }

  /** Every pre-cached URL answers from the network with an acceptable
      response; `network` holds the URLs that answer at all. */
  predicate AllFetchable(network: map<string, Response>) {
    forall u :: u in UrlsToCache ==> u in network && AddAllAccepts(network[u])
  }

  /** The cache `caches.open(name)` hands back: the existing one or a new,
      empty one. */
  function Opened(caches: map<string, Cache>, name: string): (c: Cache)
    ensures name in caches ==> c == caches[name]
    ensures name !in caches ==> c == map[]
  {
    if name in caches then caches[name] else map[]
  }

  predicate HasEntry(caches: map<string, Cache>, name: string, url: string) {
    name in caches && url in caches[name]
  }

  /** `caches.match(url)`: the caches are searched in creation order and the
      first one holding the URL answers. */
  function FirstHit(names: seq<string>, caches: map<string, Cache>, url: string): Option<Response> {
    if names == [] then None
    else if HasEntry(caches, names[0], url) then Some(caches[names[0]][url])
    else FirstHit(names[1..], caches, url)
  }

  /** The match is empty exactly when no cache holds the URL, and otherwise
      comes from the first cache, in creation order, that does. */
  lemma {:induction false} FirstHitIsFirst(names: seq<string>, caches: map<string, Cache>, url: string)
    ensures FirstHit(names, caches, url).None? <==> forall i :: 0 <= i < |names| ==> !HasEntry(caches, names[i], url)
    ensures FirstHit(names, caches, url).Some? ==>
              exists k :: 0 <= k < |names| && HasEntry(caches, names[k], url)
                          && FirstHit(names, caches, url).value == caches[names[k]][url]
                          && forall i :: 0 <= i < k ==> !HasEntry(caches, names[i], url)
  {
    if names != [] && !HasEntry(caches, names[0], url) {
      FirstHitIsFirst(names[1..], caches, url);
      var r := FirstHit(names[1..], caches, url);
      assert forall i :: 0 < i < |names| ==> names[i] == names[1..][i - 1];
      if r.Some? {
        var k :| 0 <= k < |names[1..]| && HasEntry(caches, names[1..][k], url)
                 && r.value == caches[names[1..][k]][url]
                 && forall i :: 0 <= i < k ==> !HasEntry(caches, names[1..][i], url);
        assert names[k + 1] == names[1..][k];
      }
    }
  }

  /** `names` with every occurrence of `x` removed, order kept. */
  function Without(s: seq<string>, x: string): (r: seq<string>)
    ensures forall y :: y in r <==> y in s && y != x
    ensures |r| <= |s|
  {
    if s == [] then []
    else (if s[0] == x then [] else [s[0]]) + Without(s[1..], x)
  }

  /** The elements of `s` equal to `x`, order kept. */
  function KeepOnly(s: seq<string>, x: string): (r: seq<string>)
    ensures forall y :: y in r <==> y in s && y == x
    ensures |r| <= |s|
  {
    if s == [] then []
    else (if s[0] == x then [s[0]] else []) + KeepOnly(s[1..], x)
  }

  predicate Distinct(s: seq<string>) {
    forall i, j :: 0 <= i < j < |s| ==> s[i] != s[j]
  }

  lemma {:induction false} WithoutAbsent(s: seq<string>, x: string)
    requires x !in s
    ensures Without(s, x) == s
  {
    if s != [] {
      WithoutAbsent(s[1..], x);
    }
  }

  lemma {:induction false} WithoutConcat(a: seq<string>, b: seq<string>, x: string)
    ensures Without(a + b, x) == Without(a, x) + Without(b, x)
  {
    if a == [] {
      assert a + b == b;
    } else {
      assert (a + b)[1..] == a[1..] + b;
      WithoutConcat(a[1..], b, x);
    }
  }

  lemma {:induction false} KeepOnlySnoc(s: seq<string>, y: string, x: string)
    ensures KeepOnly(s + [y], x) == KeepOnly(s, x) + (if y == x then [y] else [])
  {
    if s == [] {
      assert s + [y] == [y];
    } else {
      var t, head := s + [y], if s[0] == x then [s[0]] else [];
      assert t[0] == s[0] && t[1..] == s[1..] + [y];
      KeepOnlySnoc(s[1..], y, x);
      calc {
        KeepOnly(t, x);
        head + KeepOnly(s[1..] + [y], x);
        head + (KeepOnly(s[1..], x) + (if y == x then [y] else []));
        (head + KeepOnly(s[1..], x)) + (if y == x then [y] else []);
      }
    }
  }

  /** One turn of the activate loop that deletes `names[i]`. */
  lemma DeleteStep(names: seq<string>, i: nat)
    requires Distinct(names) && i < |names| && names[i] != CacheName
    ensures Without(KeepOnly(names[..i], CacheName) + names[i..], names[i])
            == KeepOnly(names[..i + 1], CacheName) + names[i + 1..]
  {
    var name, p, rest := names[i], KeepOnly(names[..i], CacheName), names[i + 1..];
    assert names[..i + 1] == names[..i] + [name];
    KeepOnlySnoc(names[..i], name, CacheName);
    assert KeepOnly(names[..i + 1], CacheName) == p;
    assert names[i..] == [name] + rest;
    assert name !in rest by {
      assert forall j :: i < j < |names| ==> names[j] != names[i];
    }
    WithoutAbsent(p, name);
    WithoutAbsent(rest, name);
    assert Without([name], name) == [] by {
      assert [name][1..] == [];
    }
    WithoutConcat([name], rest, name);
    assert Without([name] + rest, name) == rest;
    WithoutConcat(p, [name] + rest, name);
    calc {
      Without(p + names[i..], name);
      Without(p + ([name] + rest), name);
      Without(p, name) + Without([name] + rest, name);
      p + rest;
    }
  }

  /** One turn of the activate loop that keeps `names[i]`. */
  lemma KeepStep(names: seq<string>, i: nat)
    requires i < |names| && names[i] == CacheName
    ensures KeepOnly(names[..i], CacheName) + names[i..]
            == KeepOnly(names[..i + 1], CacheName) + names[i + 1..]
  {
    KeepOnlySnoc(names[..i], names[i], CacheName);
    assert names[..i + 1] == names[..i] + [names[i]];
    assert names[i..] == [names[i]] + names[i + 1..];
  }

  /** `caches`, the browser's `CacheStorage`. */
  class CacheStorage {
    /** Cache names in creation order, the order `caches.keys()` lists them. */
    var names: seq<string>
    var caches: map<string, Cache>

    ghost predicate Valid()
      reads this
    {
      Distinct(names) && forall n :: n in caches <==> n in names
    }

    constructor ()
      ensures Valid() && names == [] && caches == map[]
    {
      names := [];
      caches := map[];
    }

    /** `caches.match(url)` over every cache of the origin: nothing exactly
        when no cache holds the URL, and otherwise the response of the first
        cache, in creation order, that does. */
    function Match(url: string): (r: Option<Response>)
      reads this
      ensures r.None? <==> forall i :: 0 <= i < |names| ==> !HasEntry(caches, names[i], url)
      ensures r.Some? ==>
                exists k :: 0 <= k < |names| && HasEntry(caches, names[k], url) && r.value == caches[names[k]][url]
                            && forall i :: 0 <= i < k ==> !HasEntry(caches, names[i], url)
    {
      FirstHitIsFirst(names, caches, url);
      FirstHit(names, caches, url)
    }

    /** `caches.open(name)`: a missing cache is created, empty, after the
        existing ones. */
    method Open(name: string)
      requires Valid()
      modifies this
      ensures Valid()
      ensures caches == old(caches)[name := Opened(old(caches), name)]
      ensures names == if name in old(caches) then old(names) else old(names) + [name]
    {
      if name !in caches {
        names := names + [name];
        caches := caches[name := map[]];
      }
    }

    /** `cache.put(url, response)` on an open cache. */
    method Put(name: string, url: string, resp: Response)
      requires Valid() && name in caches
      modifies this`caches
      ensures Valid()
      ensures caches == old(caches)[name := old(caches)[name][url := resp]]
    {
      caches := caches[name := caches[name][url := resp]];
    }

    /** `caches.delete(name)`: answers whether a cache was there. */
    method Delete(name: string) returns (deleted: bool)
      requires Valid()
      modifies this
      ensures Valid()
      ensures deleted <==> name in old(caches)
      ensures caches == old(caches) - {name}
      ensures names == Without(old(names), name)
    {
      deleted := name in caches;
      DistinctWithout(names, name);
      names := Without(names, name);
      caches := caches - {name};
    }

    /** The install handler: open the versioned cache, then add the
        pre-cached URLs to it. */
    method Install(network: map<string, Response>) returns (installed: bool)
      requires Valid()
      modifies this
      ensures Valid()
      ensures names == if CacheName in old(caches) then old(names) else old(names) + [CacheName]
      ensures installed <==> AllFetchable(network)
      ensures !installed ==> caches == old(caches)[CacheName := Opened(old(caches), CacheName)]
      ensures installed ==> caches == old(caches)[CacheName := Opened(old(caches), CacheName) + AddAllEntries(network)]
    {
      Open(CacheName);
      installed := AddAll(CacheName, network);
    }

    /** `cache.addAll(urlsToCache)` is all or nothing: one unreachable URL or
        refused response stores none of them and rejects. */
    method AddAll(name: string, network: map<string, Response>) returns (added: bool)
      requires Valid() && name in caches
      modifies this`caches
      ensures Valid()
      ensures added <==> AllFetchable(network)
      ensures !added ==> caches == old(caches)
      ensures added ==> caches == old(caches)[name := old(caches)[name] + AddAllEntries(network)]
    {
      if AllFetchable(network) {
        caches := caches[name := caches[name] + AddAllEntries(network)];
        added := true;
      } else {
        added := false;
      }
    }

    /** The activate handler: every cache listed by `caches.keys()` whose name
        is not the current version is deleted; the current one is kept. */
    method Activate()
      requires Valid()
      modifies this
      ensures Valid()
      ensures names == KeepOnly(old(names), CacheName)
      ensures forall n :: n in caches <==> n in old(caches) && n == CacheName
      ensures CacheName in old(caches) ==> caches[CacheName] == old(caches)[CacheName]
    {
      var cacheNames := names;
      var i := 0;
      while i < |cacheNames|
        invariant 0 <= i <= |cacheNames|
        invariant Valid() && Distinct(cacheNames)
        invariant names == KeepOnly(cacheNames[..i], CacheName) + cacheNames[i..]
        invariant forall n :: n in caches ==> n in old(caches) && caches[n] == old(caches)[n]
      {
        DropIfStale(cacheNames[i]);
        if cacheNames[i] != CacheName {
          DeleteStep(cacheNames, i);
        } else {
          KeepStep(cacheNames, i);
        }
        i := i + 1;
      }
      assert cacheNames[..i] == old(names) && cacheNames[i..] == [];
    }

    /** The callback the activate handler maps over the cache names: delete
        the cache unless it is the current version. */
    method DropIfStale(name: string)
      requires Valid()
      modifies this
      ensures Valid()
      ensures name == CacheName ==> names == old(names) && caches == old(caches)
      ensures name != CacheName ==> names == Without(old(names), name) && caches == old(caches) - {name}
    {
      if name != CacheName {
        var _ := Delete(name);
      }
    }

    /** The fetch handler, with `network` the outcome of `fetch(request)`
        (`None` when it rejects). */
    method Fetch(req: Request, network: Option<Response>) returns (answer: Option<Response>, usedNetwork: bool)
      requires Valid()
      modifies this
      ensures Valid()
      ensures var p := PlanFetch(old(Match(req.url)), req, network, old(Match("/")));
              answer == p.answer && usedNetwork == p.usedNetwork
      ensures !PlanFetch(old(Match(req.url)), req, network, old(Match("/"))).store ==>
                caches == old(caches) && names == old(names)
      ensures PlanFetch(old(Match(req.url)), req, network, old(Match("/"))).store ==>
                && caches == old(caches)[CacheName := Opened(old(caches), CacheName)[req.url := network.value]]
                && names == if CacheName in old(caches) then old(names) else old(names) + [CacheName]
    {
      var hit := Match(req.url);
      if hit.Some? {
        return hit, false;
      }
      var fallback := Match("/");
      answer, usedNetwork := FetchMiss(req, network, fallback);
    }

    /** The fetch handler after a cache miss: the network answer, stored in
        the versioned cache when cacheable, or on a network failure the
        `fallback` (the cached "/") for a document request. */
    method FetchMiss(req: Request, network: Option<Response>, fallback: Option<Response>)
      returns (answer: Option<Response>, usedNetwork: bool)
      requires Valid()
      modifies this
      ensures Valid()
      ensures var p := PlanFetch(None, req, network, fallback);
              answer == p.answer && usedNetwork == p.usedNetwork
      ensures !PlanFetch(None, req, network, fallback).store ==> caches == old(caches) && names == old(names)
      ensures PlanFetch(None, req, network, fallback).store ==>
                && caches == old(caches)[CacheName := Opened(old(caches), CacheName)[req.url := network.value]]
                && names == if CacheName in old(caches) then old(names) else old(names) + [CacheName]
    {
      usedNetwork := true;
      if network.None? {
        answer := if req.destination == "document" then fallback else None;
        return;
      }
      var resp := network.value;
      if Cacheable(resp) {
        Open(CacheName);
        Put(CacheName, req.url, resp);
      }
      answer := network;
    }
  }

  lemma {:induction false} DistinctWithout(s: seq<string>, x: string)
    requires Distinct(s)
    ensures Distinct(Without(s, x))
  {
    if s != [] {
      DistinctWithout(s[1..], x);
      var t := Without(s[1..], x);
      assert s[0] !in t;
    }
  }

  /** What `addAll` stores: each pre-cached URL with its network response. */
  function AddAllEntries(network: map<string, Response>): (m: Cache)
    requires AllFetchable(network)
    ensures forall u :: u in m <==> u in UrlsToCache
    ensures forall u :: u in m ==> m[u] == network[u]
  {
    map u | u in UrlsToCache :: network[u]
  }

  /** What the fetch handler decides: the answer, whether the network was
      asked, and whether the network response is stored. `hit` is the cache
      match for the request and `fallback` the cache match for "/". */
  datatype FetchPlan = FetchPlan(answer: Option<Response>, usedNetwork: bool, store: bool)

  function PlanFetch(hit: Option<Response>, req: Request, network: Option<Response>,
                     fallback: Option<Response>): (p: FetchPlan)
    ensures hit.Some? ==> p.answer == hit && !p.usedNetwork && !p.store
    ensures hit.None? ==> p.usedNetwork
    ensures p.store <==> hit.None? && network.Some? && Cacheable(network.value)
    ensures hit.None? && network.Some? ==> p.answer == network
    ensures hit.None? && network.None? && req.destination == "document" ==> p.answer == fallback
    ensures hit.None? && network.None? && req.destination != "document" ==> p.answer.None?
  {
    if hit.Some? then FetchPlan(hit, false, false)
    else if network.None? then
      FetchPlan(if req.destination == "document" then fallback else None, true, false)
    else FetchPlan(network, true, Cacheable(network.value))
  }

  /** A response the fetch handler stores after a miss is what the next
      `caches.match` for that URL finds: no earlier cache holds the URL, and
      the versioned cache now does. */
  lemma StoredIsMatched(names: seq<string>, caches: map<string, Cache>, url: string, r: Response)
    requires forall n :: n in caches <==> n in names
    requires FirstHit(names, caches, url).None?
    ensures var names' := if CacheName in caches then names else names + [CacheName];
            FirstHit(names', caches[CacheName := Opened(caches, CacheName)[url := r]], url) == Some(r)
  {
    var names' := if CacheName in caches then names else names + [CacheName];
    var caches' := caches[CacheName := Opened(caches, CacheName)[url := r]];
    assert CacheName in names';
    var c :| 0 <= c < |names'| && names'[c] == CacheName;
    assert HasEntry(caches', names'[c], url);
    FirstHitIsFirst(names, caches, url);
    FirstHitIsFirst(names', caches', url);
    var found := FirstHit(names', caches', url);
    assert found.Some?;
    var k :| 0 <= k < |names'| && HasEntry(caches', names'[k], url)
             && found.value == caches'[names'[k]][url]
             && forall i :: 0 <= i < k ==> !HasEntry(caches', names'[i], url);
  }

  /** After a cacheable response is fetched for a URL no cache held, asking
      for the URL again is answered from the cache, without the network. */
  method FetchTwice(cs: CacheStorage, req: Request, r: Response, later: Option<Response>)
    returns (second: Option<Response>, usedNetwork: bool)
    requires cs.Valid() && cs.Match(req.url).None? && Cacheable(r)
    modifies cs
    ensures second == Some(r) && !usedNetwork
  {
    ghost var names0, caches0 := cs.names, cs.caches;
    var first, used := cs.Fetch(req, Some(r));
    StoredIsMatched(names0, caches0, req.url, r);
    second, usedNetwork := cs.Fetch(req, later);
  }

  /** A fresh worker that installs with every pre-cached URL reachable and
      then activates holds exactly the versioned cache, and every pre-cached
      URL is answered from it. */
  method InstallThenActivate(network: map<string, Response>) returns (cs: CacheStorage)
    requires AllFetchable(network)
    ensures cs.Valid() && cs.names == [CacheName]
    ensures forall u :: u in UrlsToCache ==> cs.Match(u) == Some(network[u])
  {
    cs := new CacheStorage();
    var installed := cs.Install(network);
    cs.Activate();
    assert KeepOnly([CacheName], CacheName) == [CacheName];
    forall u | u in UrlsToCache
      ensures cs.Match(u) == Some(network[u])
    {
      assert HasEntry(cs.caches, cs.names[0], u);
    }
  }
}

=== FILE: views.dfy ===
/** `QRCodeViewSet`: serializer selection, the create action with its
    duplicate-number check, the verify action and the stats action. */
module Views {
  import opened Common
  import opened Models
  import opened Serializers

  datatype SerializerClass = CreateSerializer | ModelSerializer

  /** `get_serializer_class`: the create action uses the create serializer,
      every other action the model serializer. */
  function GetSerializerClass(action: string): (c: SerializerClass)
    ensures c == CreateSerializer <==> action == "create"
    ensures c == ModelSerializer <==> action != "create"
  {
    if action == "create" then CreateSerializer else ModelSerializer
  }

  // ---------------------------------------------------------------------
  // create
  // ---------------------------------------------------------------------

  datatype CreateResponse =
    | Invalid(errors: seq<FieldError>)
    | Duplicate(number: string)
    | Created(record: Record)
  {
    function Status(): nat {
      if Created? then 201 else 400
    }
  }

  predicate NumberTaken(records: seq<Record>, number: string) {
    exists i :: 0 <= i < |records| && records[i].number == number
  }

  /** No two rows share a number: what the create action alone maintains,
      since the column itself is not unique. */
  predicate NumbersUnique(records: seq<Record>) {
    forall i, j :: 0 <= i < j < |records| ==> records[i].number != records[j].number
  }

  /** `create`: validate the body; refuse a number some row already has with
      400; otherwise save through `QRCodeCreateSerializer` and answer 201 with
      the new row. */
  method Create(table: Table, body: CreateBody, today: int) returns (resp: CreateResponse)
    requires table.Valid()
    modifies table
    ensures table.Valid()
    ensures ValidateCreate(body).Err? ==>
              resp == Invalid(ValidateCreate(body).error) && table.records == old(table.records)
    ensures ValidateCreate(body).Ok? && NumberTaken(old(table.records), ValidateCreate(body).value.number) ==>
              resp == Duplicate(ValidateCreate(body).value.number) && table.records == old(table.records)
    ensures resp.Status() == 201 <==> ValidateCreate(body).Ok? && !NumberTaken(old(table.records), ValidateCreate(body).value.number)
    ensures resp.Created? ==>
              && table.records == [resp.record] + old(table.records)
              && resp.record.number == ValidateCreate(body).value.number
              && resp.record.name == ValidateCreate(body).value.name
              && resp.record.description == ValidateCreate(body).value.description
              && resp.record.rawContent == resp.record.number
              && resp.record.createdDay == today
    ensures NumbersUnique(old(table.records)) ==> NumbersUnique(table.records)
  {
    var v := ValidateCreate(body);
    if v.Err? {
      return Invalid(v.error);
    }
    var number := v.value.number;
    if NumberTaken(table.records, number) {
      return Duplicate(number);
    }
    var rec := CreateSerializerCreate(table, v.value, today);
    FreshNumberKeepsUnique(rec, old(table.records));
    resp := Created(rec);
  }

  /** Putting a row with an unused number in front keeps numbers unique. */
  lemma FreshNumberKeepsUnique(rec: Record, records: seq<Record>)
    requires !NumberTaken(records, rec.number)
    ensures NumbersUnique(records) ==> NumbersUnique([rec] + records)
  {
    if NumbersUnique(records) {
      forall i, j | 0 <= i < j < |[rec] + records|
        ensures ([rec] + records)[i].number != ([rec] + records)[j].number
      {
        if i == 0 {
          assert ([rec] + records)[j] == records[j - 1];
        } else {
          assert ([rec] + records)[i] == records[i - 1] && ([rec] + records)[j] == records[j - 1];
        }
      }
    }
  }

  // ---------------------------------------------------------------------
  // verify
  // ---------------------------------------------------------------------

  datatype VerifyResponse =
    | VerifyInvalid(errors: seq<FieldError>)
    | Found(record: Record)
    | NotFound(content: string)

  /** `verify`: a read-only lookup of the stripped content; the row reported
      is the one `find_by_content` picks. */
  function Verify(records: seq<Record>, content: Option<string>): (r: VerifyResponse)
    ensures r.VerifyInvalid? <==>
              content.None? || AllSpace(IsPythonSpace, content.value) || '\0' in Strip(IsPythonSpace, content.value)
    ensures r.VerifyInvalid? ==> r.errors == ValidateVerify(content).error
    ensures r.Found? <==> ValidateVerify(content).Ok? && FindByContent(records, Strip(IsPythonSpace, content.value)).Some?
    ensures r.Found? ==> r.record == FindByContent(records, Strip(IsPythonSpace, content.value)).value
    ensures r.Found? ==> r.record in records
    ensures r.Found? ==> var c := Strip(IsPythonSpace, content.value);
                         r.record.rawContent == c || Some(r.record.number) == ExtractNumber(c)
    ensures r.NotFound? ==> r.content == Strip(IsPythonSpace, content.value)
    ensures r.NotFound? ==> var c := Strip(IsPythonSpace, content.value);
                            && !AnyWith(records, RawContent, c)
                            && (ExtractNumber(c).Some? ==> !AnyWith(records, Number, ExtractNumber(c).value))
  {
    match ValidateVerify(content)
    case Err(e) => VerifyInvalid(e)
    case Ok(c) =>
      var found := FindByContent(records, c);
      if found.Some? then
        FoundRowMatches(records, c);
        Found(found.value)
      else NotFound(c)
  }

  // ---------------------------------------------------------------------
  // stats
  // ---------------------------------------------------------------------

  /** `QRCodeStatsSerializer`: four integer counts. */
  datatype Stats = Stats(totalQrCodes: nat, createdToday: nat, createdThisWeek: nat, createdThisMonth: nat)

  /** `filter(created_at__date=day).count()` */
  function CountCreatedOn(records: seq<Record>, day: int): (n: nat)
    ensures n <= |records|
  {
    if records == [] then 0
    else (if records[0].createdDay == day then 1 else 0) + CountCreatedOn(records[1..], day)
  }

  /** `filter(created_at__date__gte=day).count()` */
  function CountCreatedSince(records: seq<Record>, day: int): (n: nat)
    ensures n <= |records|
  {
    if records == [] then 0
    else (if records[0].createdDay >= day then 1 else 0) + CountCreatedSince(records[1..], day)
  }

  lemma {:induction false} CountCreatedOnSnoc(records: seq<Record>, rec: Record, day: int)
    ensures CountCreatedOn(records + [rec], day) == CountCreatedOn(records, day) + (if rec.createdDay == day then 1 else 0)
  {
    if records == [] {
      assert (records + [rec])[1..] == [];
    } else {
      assert (records + [rec])[1..] == records[1..] + [rec];
      CountCreatedOnSnoc(records[1..], rec, day);
    }
  }

  lemma {:induction false} CountCreatedSinceSnoc(records: seq<Record>, rec: Record, day: int)
    ensures CountCreatedSince(records + [rec], day) == CountCreatedSince(records, day) + (if rec.createdDay >= day then 1 else 0)
  {
    if records == [] {
      assert (records + [rec])[1..] == [];
    } else {
      assert (records + [rec])[1..] == records[1..] + [rec];
      CountCreatedSinceSnoc(records[1..], rec, day);
    }
  }

  /** The day's count is the number of rows whose creation day is that day. */
  lemma {:induction false} CountCreatedOnIsSize(records: seq<Record>, day: int)
    ensures CountCreatedOn(records, day) == |set i | 0 <= i < |records| && records[i].createdDay == day|
    decreases |records|
  {
    var s := set i | 0 <= i < |records| && records[i].createdDay == day;
    if records == [] {
      assert s == {};
    } else {
      var n := |records| - 1;
      var p := records[..n];
      assert records == p + [records[n]];
      CountCreatedOnSnoc(p, records[n], day);
      CountCreatedOnIsSize(p, day);
      var sp := set i | 0 <= i < |p| && p[i].createdDay == day;
      if records[n].createdDay == day {
        assert s == sp + {n};
      } else {
        assert s == sp;
      }
    }
  }

  /** The count since a day is the number of rows created on or after it. */
  lemma {:induction false} CountCreatedSinceIsSize(records: seq<Record>, day: int)
    ensures CountCreatedSince(records, day) == |set i | 0 <= i < |records| && records[i].createdDay >= day|
    decreases |records|
  {
    var s := set i | 0 <= i < |records| && records[i].createdDay >= day;
    if records == [] {
      assert s == {};
    } else {
      var n := |records| - 1;
      var p := records[..n];
      assert records == p + [records[n]];
      CountCreatedSinceSnoc(p, records[n], day);
      CountCreatedSinceIsSize(p, day);
      var sp := set i | 0 <= i < |p| && p[i].createdDay >= day;
      if records[n].createdDay >= day {
        assert s == sp + {n};
      } else {
        assert s == sp;
      }
    }
  }

  /** `stats`: all rows, rows of today, rows since seven days ago, rows since
      thirty days ago. The nested windows give nested counts. */
  function GetStats(records: seq<Record>, today: int): (s: Stats)
    ensures s.totalQrCodes == |records|
    ensures s.createdToday == CountCreatedOn(records, today)
    ensures s.createdThisWeek == CountCreatedSince(records, today - 7)
    ensures s.createdThisMonth == CountCreatedSince(records, today - 30)
    ensures s.createdToday <= s.createdThisWeek <= s.createdThisMonth <= s.totalQrCodes
  {
    OnIsWithinSince(records, today, today - 7);
    SinceShrinks(records, today - 30, today - 7);
    Stats(|records|, CountCreatedOn(records, today),
          CountCreatedSince(records, today - 7), CountCreatedSince(records, today - 30))
  }

  lemma {:induction false} OnIsWithinSince(records: seq<Record>, day: int, from: int)
    requires from <= day
    ensures CountCreatedOn(records, day) <= CountCreatedSince(records, from)
  {
    if records != [] {
      OnIsWithinSince(records[1..], day, from);
    }
  }

  lemma {:induction false} SinceShrinks(records: seq<Record>, early: int, late: int)
    requires early <= late
    ensures CountCreatedSince(records, late) <= CountCreatedSince(records, early)
  {
    if records != [] {
      SinceShrinks(records[1..], early, late);
    }
  }

  /** A row created today adds one to every count. */
  lemma NewRowCountsEverywhere(rec: Record, records: seq<Record>, today: int)
    requires rec.createdDay == today
    ensures var before, after := GetStats(records, today), GetStats([rec] + records, today);
            && after.totalQrCodes == before.totalQrCodes + 1
            && after.createdToday == before.createdToday + 1
            && after.createdThisWeek == before.createdThisWeek + 1
            && after.createdThisMonth == before.createdThisMonth + 1
  {
    assert ([rec] + records)[1..] == records;
  }
}
